=== FILE: README.md ===
# RunInTray launcher core, modelled in Dafny

RunInTray is a Windows tray application that launches console programs with a
hidden window. It captures their standard output and standard error into a log
file and a live log viewer, and closes them on request. This project models
the launcher's core:

- `ProcessList`: the list of running children. It covers launching with an
  encoded argument string, pruning exited processes, the close protocol for
  one or all processes, listing names, and looking up a capture.
- `ProcessOutput`: the output capture. It covers the log file's path, the
  dispose signal (`DisposeObservable`), the two replayed feeds, and the
  merged log.

Modules:

| file | module | models |
|---|---|---|
| `argv_quote.dfy` | `ArgvQuote` | `ProcessList.ArgvQuote`: the encoder as the source's loop, and as a function of the argument |
| `command_line.dfy` | `CommandLine` | The Microsoft C runtime argument parser. The round-trip lemmas read the encoder's output back with it. |
| `process_list.dfy` | `ProcessList` | `RunProcess`, `Close`, `CloseAll`, `GetNames`, `HasProcesses`, `GetProcessOutput`, `RemoveExited` |
| `log_path.dfy` | `LogPath` | `GetLogBaseDir` and `GetLogPath`: the nine-step name sanitiser, `Path.Combine`, and the `yyyy-MM-dd_HH-mm-ss` timestamp |
| `dispose_observable.dfy` | `DisposeObservable` | `DisposeObservable.Subscribe`, its unsubscribe handle, and `Dispose` |
| `output_capture.dfy` | `OutputCapture` | The `ProcessOutput` constructor, `CreateOutputObservable`, `GetOutput`, `GetErrorOutput` and `Dispose` |

The operating system enters as data:
- An `Os` value says which processes have exited, which accept the close
  message, and which exit within the 2000 ms wait.
- A `Launch` value says whether `Process.Start` succeeded, and with which
  process id and name, or which of the two caught exceptions it threw. It
  can also say that the process started but building its capture threw:
  creating the log directory or opening the log file failed.
- Everything the list does to processes and captures is returned as an
  ordered sequence of `Effect`s: close message, wait, kill, output disposal
  and handle release.
- For the capture, process output arrives as a sequence of actions:
  `DataReceived` events, viewers subscribing, and disposal.
- The clock reading and the local application data folder are parameters.

## Model

| member | source | states |
|---|---|---|
| `ArgvQuote.ArgvQuote` | ProcessList.cs:162-214 | The source's loop, with its backslash counting, computes exactly `Quote`: the argument is returned unchanged when it needs no quoting, and is otherwise wrapped in quotes around the escaped body that the three run lemmas below describe. |
| `ArgvQuote.QuoteUnchangedIff` | ProcessList.cs:167-172 | Without forcing, an argument comes back unchanged if and only if it is non-empty and free of space, tab, newline, vertical tab and double quote. Otherwise it is wrapped in double quotes, and the empty argument becomes `""`. |
| `ArgvQuote.EscapeQuoteRun` | ProcessList.cs:196-202 | N backslashes followed by a double quote become 2N+1 backslashes and the quote. |
| `ArgvQuote.EscapeTrailingRun` | ProcessList.cs:188-195 | N backslashes at the end of the argument become 2N backslashes, so that the closing quote stays a delimiter. |
| `ArgvQuote.EscapeOtherRun` | ProcessList.cs:203-208 | Backslashes followed by any other character are copied unchanged. |
| `ArgvQuote.EscapeKeepsOtherCharacters` | ProcessList.cs:178-209 | The encoding only inserts backslashes: once backslashes are dropped, the encoded body has the argument's other characters in order. |
| `CommandLine.QuoteRoundTrip` | ProcessList.cs:150-154 | The C runtime parser reads the encoded argument back as exactly the argument, whatever text follows a blank. The encoded form is never empty and never starts with a blank. |
| `ArgvQuote.JoinArgs` | ProcessList.cs:31-32 | The argument string is empty exactly when there are no arguments. It holds at least one character per argument, and one space between arguments. |
| `CommandLine.JoinArgsRoundTrip` | ProcessList.cs:30-32 | Parsing the space-joined encoded arguments gives back exactly the argument list, the empty list included. |
| `ProcessList.RunProcess` | ProcessList.cs:28-56 | It succeeds exactly when the process starts and its capture is built. When `Process.Start` throws one of the two caught exceptions, the list is unchanged and the wrapped error message names the path. When building the capture throws, the list is unchanged and the error is the unwrapped one, carrying the id of the process that keeps running. On success exactly one entry is appended, carrying the new process and capture, and its argument string parses back to the arguments. |
| `ProcessList.Terminate` | ProcessList.cs:61-78 | The close message comes first. A wait of 2000 ms follows it exactly when the message was delivered. A kill follows exactly when the process did not both accept the message and exit in time, and comes after the wait. The output is disposed once, then the handle is released. Nothing else happens: the length is 3 plus one for the wait and one for the kill, and every effect concerns this entry. |
| `ProcessList.Close` | ProcessList.cs:59-80 | An index outside the list fails with no effect. Otherwise that entry alone is removed, the others keep their order, and its close protocol runs. |
| `ProcessList.CloseListedEntry` | ProcessList.cs:113-117 | Closing index i of the listed processes closes the process shown as the i-th name, and removes that entry from the list. |
| `ProcessList.RemoveExited` | ProcessList.cs:132-145 | Pruning never grows the list, and records two effects for each entry it removes. |
| `ProcessList.RemoveExitedKeeps` | ProcessList.cs:132-145 | An entry survives pruning if and only if its process has not exited, and the survivors keep their order. |
| `ProcessList.RemoveExitedEffects` | ProcessList.cs:135-144 | Every exited entry has its output disposed and its handle released. Every effect of pruning belongs to an exited entry. |
| `ProcessList.RemoveExitedIdempotent` | ProcessList.cs:132-145 | Pruning an already pruned list removes nothing and does nothing. |
| `ProcessList.RemoveExitedDisposesOnce` | ProcessList.cs:137-141 | With distinct captures, pruning disposes each exited entry's output exactly once, and no surviving entry's output. |
| `ProcessList.RemoveExitedKeepsDistinct` | ProcessList.cs:135-144 | Pruning keeps the captures of the list distinct. |
| `ProcessList.TerminateAll` | ProcessList.cs:87-107 | Every entry is sent the close message and has its output disposed. |
| `ProcessList.TerminateAllProtocol` | ProcessList.cs:87-107 | Every entry's whole close protocol (message, wait, kill, disposal, release) appears uninterrupted among the effects. |
| `ProcessList.TerminateAllPids` | ProcessList.cs:87-107 | Every effect other than a disposal concerns a process of the list. |
| `ProcessList.TerminateAllAbsent` | ProcessList.cs:87-107 | Closing a list sends no close message, wait, kill or handle release to a process outside the list. |
| `ProcessList.TerminateAllPresent` | ProcessList.cs:87-107 | With distinct process ids, closing a list aims at one of its processes exactly what that process's own close protocol aims at it, as many times. |
| `ProcessList.CloseAll` | ProcessList.cs:83-110 | The list ends empty. Every entry's output is disposed, and every entry still running is sent the close message. |
| `ProcessList.CloseAllProtocol` | ProcessList.cs:83-110 | Every entry still running goes through the whole close protocol uninterrupted. An entry that had already exited is only retired by pruning: it is sent no close message, no wait and no kill. |
| `ProcessList.CloseAllRunsOnce` | ProcessList.cs:83-110 | With distinct process ids, a process still running is aimed each close message, wait, kill and handle release exactly as often as its own close protocol aims it: no second close message, and no kill after a timely exit. |
| `ProcessList.CloseAllDisposesOnce` | ProcessList.cs:83-110 | With distinct captures, closing everything disposes each entry's output exactly once, whether it was pruned or closed. |
| `ProcessList.GetNames` | ProcessList.cs:113-117 | The list is pruned first. The names are the survivors' name-space-arguments strings, one per survivor, in list order. |
| `ProcessList.LaunchedIsListedLast` | ProcessList.cs:113-117 | A launched process that is still running is listed last, as its name, a space, and an argument string that parses back to the arguments. |
| `ProcessList.HasProcesses` | ProcessList.cs:120-124 | The answer is true exactly when some entry's process has not exited, and the list is pruned as a side effect. |
| `ProcessList.GetProcessOutput` | ProcessList.cs:126-129 | It fails exactly for an index outside the list. Otherwise it gives the capture of the entry at that index. |
| `ProcessList.ListedOutput` | ProcessList.cs:113-129 | The capture at index i of the pruned list belongs to the running process that is listed as the i-th name. |
| `LogPath.SanitizeIsCharMap` | ProcessOutput.cs:88-97 | The chain of nine `Replace` calls, applied in order, equals one character-by-character map. |
| `LogPath.SanitizeMapsCharacters` | ProcessOutput.cs:88-97 | The sanitised name holds none of the nine characters. `"` becomes `'`, `\` and `/` become `-`, the other six are deleted, and every other character is kept in order. |
| `LogPath.SanitizeIdempotent` | ProcessOutput.cs:88-97 | Sanitising an already sanitised name changes nothing. |
| `LogPath.LogBaseDir` | ProcessOutput.cs:77-83 | The base directory starts with the local application data folder and ends with the folder name `RunInTray`. When the data folder is empty, it is just `RunInTray`. |
| `LogPath.FormatTimestamp` | ProcessOutput.cs:100 | The timestamp is 19 characters: digits, with `-` at positions 4, 7, 13 and 16 and `_` at position 10. |
| `LogPath.TimestampRoundTrip` | ProcessOutput.cs:99-100 | The fields of the clock reading can be read back from the formatted timestamp. |
| `LogPath.CombineTwice` | ProcessOutput.cs:102-105 | Combining a base, a directory free of separators and colons, and a non-rooted file name joins them with backslashes, and omits an empty directory. |
| `LogPath.GetLogPath` | ProcessOutput.cs:86-106 | The log path is the base directory, the sanitised name (absent when empty) and the timestamp plus `.log`, joined by backslashes. No friendly name can make the path rooted and so replace the base directory. |
| `LogPath.LogPathsDiffer` | ProcessOutput.cs:99-105 | Two launches at different clock readings log to different files. |
| `DisposeObservable.Subscribe` | ProcessOutput.cs:20-24 | The observer is appended after the existing ones, and the returned handle is live. |
| `DisposeObservable.Release` | ProcessOutput.cs:23 | A live handle removes its observer's first entry and becomes spent. A spent handle changes nothing. |
| `DisposeObservable.RemoveFirstDeletes` | ProcessOutput.cs:23 | Unsubscribing an absent observer changes nothing. Otherwise exactly one copy of the observer leaves the multiset of observers. |
| `DisposeObservable.RemovePresent` | ProcessOutput.cs:23 | It is the first entry equal to the observer that is removed, and only that entry. |
| `DisposeObservable.SubscribeRelease` | ProcessOutput.cs:20-24 | Subscribing and then disposing the handle restores the observer list when the observer was new. In every case it restores the multiset. |
| `DisposeObservable.ReleaseTwice` | ProcessOutput.cs:23 | Disposing a handle twice is disposing it once. |
| `DisposeObservable.Dispose` | ProcessOutput.cs:27-38 | Every observer subscribed when `Dispose` starts gets one value then completion, in subscription order. This holds even when observers unsubscribe during delivery. Afterwards exactly the observers that did not unsubscribe remain. |
| `OutputCapture.Chunk` | ProcessOutput.cs:126-129 | Each event's data gets the line break `\r\n` back. An event without data (end of stream) becomes the bare line break. |
| `OutputCapture.Create` | ProcessOutput.cs:51-75 | A new capture is consistent and empty, and its log file is open at the path `GetLogPath` gives. |
| `OutputCapture.Receive` | ProcessOutput.cs:124-132 | Before disposal the chunk is appended to its stream's feed and to the log. Every viewer of that feed, and no other, is told the chunk after what it was told before, and the feed keeps exactly its viewers. The other feed is untouched. After disposal the event is dropped. End of stream neither completes a feed nor closes the log. |
| `OutputCapture.Attach` | ProcessOutput.cs:113-121 | A viewer subscribing at any time, including after disposal, is replayed the whole transcript so far. The feed's other viewers and history, the other feed, and the log and its path are untouched. |
| `OutputCapture.Dispose` | ProcessOutput.cs:108-111 | After disposal the log is closed, and each feed keeps exactly its viewers. On the first disposal every viewer of both feeds is told completion after what it was told before. No chunk is lost or added, and a second disposal changes nothing. |
| `OutputCapture.DisposeIdempotent` | ProcessOutput.cs:108-111 | Disposing twice is disposing once. |
| `OutputCapture.RunArrivals` | ProcessOutput.cs:66-70 | Whatever the order of events, viewers and disposals, the log receives exactly the chunks of the events before the first disposal, in arrival order. |
| `OutputCapture.CaptureRun` | ProcessOutput.cs:124-139 | From a new capture, each feed's history is its stream's share of those chunks. Every viewer that attached at any point is still attached, and has been told exactly its feed's transcript. The log stays at the path `GetLogPath` gave, and is closed exactly when the capture is disposed. |
| `OutputCapture.RunKeepsAttached` | ProcessOutput.cs:113-121 | A viewer that attached to a feed during a run is still attached to it at the end. |
| `OutputCapture.ViewerOnlyGrows` | ProcessOutput.cs:134-136 | No step drops an attached viewer or takes back what it was told: its notes only grow at the end. |
| `OutputCapture.AfterDispose` | ProcessOutput.cs:130-131 | Once disposed, no later action changes the feed histories, the merged arrivals or the log: the log stays closed at the same path. |
| `OutputCapture.TranscriptGrows` | ProcessOutput.cs:134-136 | No step loses or reorders a note a viewer was told: each feed's transcript only grows at its end. |

## Left out

- Windows itself is not modelled: process creation, window messages, the wait, kill, handle release, directory creation, the log file's UTF-8 writer, and the clock. The outcomes of process creation and of the window messages and waits are parameters (`Os`, `Launch`), and so are the clock reading and the local application data folder. The invocations are `Effect`s.
- Directory creation and the log writer have no outcome of their own. Their failure appears only in `ProcessList`, as the `CaptureFailed` outcome of `Launch`. `OutputCapture.Create` models the constructor when both succeed. Failing while writing to the log is not modelled.
- `ProcessList.RunProcess` does not model exceptions of `Process.Start` other than the two it catches, since they leave it unwrapped just as a capture failure does.
- Concurrency is not modelled. `DataReceived` events arrive on thread-pool threads, and Rx schedules the merged log writes. The model applies events one at a time, in an order the caller chooses.
- The tray UI, the log viewer windows, and single-instance handling are not part of this model.
- Null strings and null argument lists are not modelled. Strings are sequences of characters, with no encoding.
- `CommandLine` follows the C runtime's reading of `""` inside quotes as a literal quote (the post-2008 rule). It does not model the special rules for the program name (`argv[0]`).
- `LogPath.Combine` omits `Path.Combine`'s check for invalid path characters. Control characters and other characters invalid in file names are kept by the sanitiser, exactly as in the source. Windows' trimming of trailing dots and spaces is not modelled.
- `ProcessList.RunProcess` constructs the capture with one argument (`new ProcessOutput(process)`, ProcessList.cs:45). The `ProcessOutput` constructor in ProcessOutput.cs takes a friendly name as well. The two files come from different revisions, so the capture is a number in `ProcessList`, and `OutputCapture.Create` takes the friendly name as a parameter.
- The log is closed when the capture is disposed, not at end of stream. The event at end of stream carries no data and adds only a line break (ProcessOutput.cs:129). Nothing completes the feeds before the dispose signal (ProcessOutput.cs:131).
- `OutputCapture.Dispose` completes both feeds in one step. In the source, `CompositeDisposable` first fires `DisposeObservable.Dispose`. That makes each `TakeUntil` complete its feed, and the merged stream then closes the log. The replay connections are disposed last. The inner order is not modelled separately.
- `ProcessList.Terminate`: a kill is issued even to a process that exited on its own after refusing the close message, as the source does. Whether the kill then throws is not modelled.
- `ProcessList.GetProcessOutput` returns the capture's number. The capture itself lives in `OutputCapture`.

=== FILE: argv_quote.dfy ===
/**
 The argument encoder of the launcher (`ProcessList.ArgvQuote`): it turns one
 argument into text that the Microsoft C runtime argument parser (and
 `CommandLineToArgvW`) reads back unchanged, and `RunProcess` joins the
 encoded arguments with single spaces.

 Only a non-empty argument free of space, tab, newline, vertical tab and
 double quote is passed through as is; every other argument is wrapped in
 double quotes, with each run of backslashes doubled when it precedes a quote
 (plus one escaping backslash for the quote itself) or the closing quote.
 */
module ArgvQuote {

  /** The characters that force an argument to be quoted. */
  predicate IsSpecial(c: char) {
    c == ' ' || c == '\t' || c == '\n' || c == '\U{000B}' || c == '"'
  }

  /** An empty argument, or one holding a special character, must be quoted. */
  predicate NeedsQuoting(a: string) {
    |a| == 0 || exists i :: 0 <= i < |a| && IsSpecial(a[i])
  }

  /** `n` backslashes. */
  function Backslashes(n: nat): (r: string)
    ensures |r| == n
    ensures forall k :: 0 <= k < n ==> r[k] == '\\'
  {
    if n == 0 then [] else ['\\'] + Backslashes(n - 1)
  }

  /** The length of the run of backslashes at the front of `s`. */
  function LeadingBackslashes(s: string): (n: nat)
    ensures n <= |s|
    ensures forall k :: 0 <= k < n ==> s[k] == '\\'
    ensures n == |s| || s[n] != '\\'
  {
    if |s| == 0 || s[0] != '\\' then 0 else 1 + LeadingBackslashes(s[1..])
  }

  /**
   The body of the quoted form, read one character at a time with `pending`
   backslashes seen and not yet written, as the source's loop counts them:
   at the end they are doubled, before a double quote they are doubled plus
   one escaping the quote, and before any other character they are written
   as they are.
   */
  function EscapeFrom(a: string, pending: nat): (r: string)
    ensures |r| >= |a| + pending
    decreases |a|
  {
    if |a| == 0 then Backslashes(2 * pending)
    else if a[0] == '\\' then EscapeFrom(a[1..], pending + 1)
    else if a[0] == '"' then Backslashes(2 * pending + 1) + ['"'] + EscapeFrom(a[1..], 0)
    else Backslashes(pending) + [a[0]] + EscapeFrom(a[1..], 0)
  }

  /** The body of the quoted form of `a`. */
  function Escape(a: string): string {
    EscapeFrom(a, 0)
  }

  /** The encoded argument: unchanged when no quoting is needed or forced. */
  function Quote(a: string, force: bool): (r: string)
    ensures |r| >= |a| && |r| > 0
  {
    if !force && !NeedsQuoting(a) then a else ['"'] + Escape(a) + ['"']
  }

  /** `RunProcess`'s argument string: the encoded arguments joined by single spaces. */
  function JoinArgs(args: seq<string>): (r: string)
    ensures |r| == 0 <==> |args| == 0
    ensures |r| >= 2 * |args| - 1
  {
    if |args| == 0 then []
    else if |args| == 1 then Quote(args[0], false)
    else Quote(args[0], false) + " " + JoinArgs(args[1..])
  }

  /** A run of exactly `n` backslashes at the front of `s` is what `LeadingBackslashes` measures. */
  lemma {:induction false} LeadingUnique(s: string, n: nat)
    requires n <= |s|
    requires forall k :: 0 <= k < n ==> s[k] == '\\'
    requires n == |s| || s[n] != '\\'
    ensures LeadingBackslashes(s) == n
  {
    if n > 0 {
      LeadingUnique(s[1..], n - 1);
    }
  }

  /** A run of exactly `n` backslashes at the front of `Backslashes(n) + x`. */
  lemma LeadingRun(n: nat, x: string)
    requires x == [] || x[0] != '\\'
    ensures LeadingBackslashes(Backslashes(n) + x) == n
  {
    LeadingUnique(Backslashes(n) + x, n);
  }

  /** An argument that starts with a run of backslashes is that run plus the rest. */
  lemma SplitAtRun(a: string)
    ensures a == Backslashes(LeadingBackslashes(a)) + a[LeadingBackslashes(a)..]
  {
    var n := LeadingBackslashes(a);
    assert a[..n] == Backslashes(n);
    assert a == a[..n] + a[n..];
  }

  /** Concatenation regrouped. */
  lemma Assoc<T>(a: seq<T>, b: seq<T>, c: seq<T>)
    ensures a + b + c == a + (b + c)
  {
  }

  lemma Regroup(done: string, piece: string, rest: string, todo: string, whole: string)
    requires done + todo == whole && todo == piece + rest
    ensures (done + piece) + rest == whole
  {
  }

  /** A backslash at position `i` is counted, not yet written. */
  lemma EscapeBackslash(s: string, i: nat, pending: nat)
    requires i < |s| && s[i] == '\\'
    ensures EscapeFrom(s[i..], pending) == EscapeFrom(s[i + 1..], pending + 1)
  {
    assert s[i..][1..] == s[i + 1..];
  }

  /** What the characters counted so far become once the run ends at position `i`. */
  lemma EscapeRunEnd(s: string, i: nat, pending: nat)
    requires i <= |s| && (i == |s| || s[i] != '\\')
    ensures i == |s| ==> EscapeFrom(s[i..], pending) == Backslashes(pending * 2)
    ensures i < |s| && s[i] == '"' ==>
              EscapeFrom(s[i..], pending) == (Backslashes(pending * 2 + 1) + [s[i]]) + EscapeFrom(s[i + 1..], 0)
    ensures i < |s| && s[i] != '"' ==>
              EscapeFrom(s[i..], pending) == (Backslashes(pending) + [s[i]]) + EscapeFrom(s[i + 1..], 0)
  {
    if i < |s| {
      assert s[i..][0] == s[i];
      assert s[i..][1..] == s[i + 1..];
    }
  }

  /** The loop of the source, building the quoted form in a string builder. */
  method ArgvQuote(argument: string, force: bool) returns (r: string)
    ensures r == Quote(argument, force)
  {
    if !force && !NeedsQuoting(argument) {
      return argument;
    }
    var whole := ['"'] + Escape(argument);
    var commandLine := ['"'];
    var i := 0;
    assert argument[i..] == argument;
    while true
      invariant 0 <= i <= |argument|
      invariant commandLine + EscapeFrom(argument[i..], 0) == whole
      decreases |argument| - i
    {
      var numberBackslashes := 0;
      while i != |argument| && argument[i] == '\\'
        invariant 0 <= i <= |argument|
        invariant commandLine + EscapeFrom(argument[i..], numberBackslashes) == whole
        decreases |argument| - i
      {
        EscapeBackslash(argument, i, numberBackslashes);
        i := i + 1;
        numberBackslashes := numberBackslashes + 1;
      }
      EscapeRunEnd(argument, i, numberBackslashes);
      if i == |argument| {
        commandLine := commandLine + Backslashes(numberBackslashes * 2);
        break;
      } else if argument[i] == '"' {
        var piece := Backslashes(numberBackslashes * 2 + 1) + [argument[i]];
        Regroup(commandLine, piece, EscapeFrom(argument[i + 1..], 0), EscapeFrom(argument[i..], numberBackslashes), whole);
        commandLine := commandLine + piece;
      } else {
        var piece := Backslashes(numberBackslashes) + [argument[i]];
        Regroup(commandLine, piece, EscapeFrom(argument[i + 1..], 0), EscapeFrom(argument[i..], numberBackslashes), whole);
        commandLine := commandLine + piece;
      }
      i := i + 1;
    }
    r := commandLine + ['"'];
  }

  /** A run of `n` backslashes in front of `x` is only counted. */
  lemma {:induction false} EscapeSkipsRun(n: nat, x: string, pending: nat)
    ensures EscapeFrom(Backslashes(n) + x, pending) == EscapeFrom(x, pending + n)
  {
    if n == 0 {
      assert Backslashes(n) + x == x;
    } else {
      assert (Backslashes(n) + x)[1..] == Backslashes(n - 1) + x;
      EscapeSkipsRun(n - 1, x, pending + 1);
    }
  }

  /** A run of N backslashes followed by a quote becomes 2N+1 backslashes and the quote. */
  lemma EscapeQuoteRun(n: nat, rest: string)
    ensures Escape(Backslashes(n) + ['"'] + rest) == Backslashes(2 * n + 1) + ['"'] + Escape(rest)
  {
    assert Backslashes(n) + ['"'] + rest == Backslashes(n) + (['"'] + rest);
    EscapeSkipsRun(n, ['"'] + rest, 0);
    assert (['"'] + rest)[1..] == rest;
  }

  /** A run of N backslashes at the end of the argument becomes 2N backslashes. */
  lemma EscapeTrailingRun(n: nat)
    ensures Escape(Backslashes(n)) == Backslashes(2 * n)
  {
    EscapeSkipsRun(n, [], 0);
    assert Backslashes(n) + [] == Backslashes(n);
  }

  /** Backslashes followed by any character but a quote are copied unchanged. */
  lemma EscapeOtherRun(n: nat, c: char, rest: string)
    requires c != '\\' && c != '"'
    ensures Escape(Backslashes(n) + [c] + rest) == Backslashes(n) + [c] + Escape(rest)
  {
    assert Backslashes(n) + [c] + rest == Backslashes(n) + ([c] + rest);
    EscapeSkipsRun(n, [c] + rest, 0);
    assert ([c] + rest)[1..] == rest;
  }

  /** The characters of `s` other than backslashes, in order. */
  function WithoutBackslashes(s: string): string
  {
    if |s| == 0 then [] else
      (if s[0] == '\\' then [] else [s[0]]) + WithoutBackslashes(s[1..])
  }

  lemma WithoutBackslashesCons(c: char, x: string)
    requires c != '\\'
    ensures WithoutBackslashes([c] + x) == [c] + WithoutBackslashes(x)
  {
    assert ([c] + x)[1..] == x;
  }

  lemma {:induction false} WithoutBackslashesRun(n: nat, x: string)
    ensures WithoutBackslashes(Backslashes(n) + x) == WithoutBackslashes(x)
  {
    if n > 0 {
      assert (Backslashes(n) + x)[1..] == Backslashes(n - 1) + x;
      WithoutBackslashesRun(n - 1, x);
    } else {
      assert Backslashes(n) + x == x;
    }
  }

  /** Escaping only inserts backslashes: every other character survives, in order. */
  lemma {:induction false} EscapeKeepsOtherCharacters(a: string, pending: nat)
    ensures WithoutBackslashes(EscapeFrom(a, pending)) == WithoutBackslashes(a)
    decreases |a|
  {
    if |a| == 0 {
      WithoutBackslashesRun(2 * pending, []);
      assert Backslashes(2 * pending) + [] == Backslashes(2 * pending);
    } else {
      var c := a[0];
      var rest := a[1..];
      assert a == [c] + rest;
      if c == '\\' {
        EscapeKeepsOtherCharacters(rest, pending + 1);
        assert WithoutBackslashes(a) == WithoutBackslashes(rest);
      } else {
        EscapeKeepsOtherCharacters(rest, 0);
        WithoutBackslashesCons(c, rest);
        WithoutBackslashesCons(c, EscapeFrom(rest, 0));
        var k := if c == '"' then 2 * pending + 1 else pending;
        Regroup(Backslashes(k), [c], EscapeFrom(rest, 0), [c] + EscapeFrom(rest, 0),
                Backslashes(k) + ([c] + EscapeFrom(rest, 0)));
        WithoutBackslashesRun(k, [c] + EscapeFrom(rest, 0));
      }
    }
  }

  /**
   Without forcing, an argument is returned unchanged exactly when it is
   non-empty and holds no special character; otherwise the result is wrapped
   in quotes, and the empty argument becomes exactly two quotes.
   */
  lemma QuoteUnchangedIff(a: string)
    ensures Quote(a, false) == a <==> !NeedsQuoting(a)
    ensures NeedsQuoting(a) ==>
              (|Quote(a, false)| >= 2 && Quote(a, false)[0] == '"' && Quote(a, false)[|Quote(a, false)| - 1] == '"')
    ensures Quote([], false) == "\"\""
  {
    if NeedsQuoting(a) {
      assert |Quote(a, false)| == |Escape(a)| + 2;
    }
    assert LeadingBackslashes([]) == 0;
  }
}

=== FILE: command_line.dfy ===
/**
 The reader the encoder is written for: the post-2008 Microsoft C runtime
 rules for splitting an argument string into an argument vector, under which
 a doubled quote `""` inside a quoted run stands for one quote and the run
 stays open. `CommandLineToArgvW` differs from those rules only on that
 doubled quote (it closes the run), and the encoder never emits one.

 - Arguments are separated by spaces and tabs outside quotes.
 - A double quote outside an escape opens or closes a quoted region, and the
   quote itself is not part of the argument; inside a quoted region, two
   double quotes in a row stand for one literal quote.
 - 2N backslashes followed by a quote give N backslashes and the quote acts
   as above; 2N+1 backslashes followed by a quote give N backslashes and a
   literal quote; backslashes followed by anything else are literal.

 The main result is `JoinArgsRoundTrip`: parsing the argument string that
 `RunProcess` builds gives back the argument list it was built from.
 */
module CommandLine {
  import opened ArgvQuote

  /** The separators between arguments. */
  predicate IsBlank(c: char) {
    c == ' ' || c == '\t'
  }

  /** One parsed argument and the text after it. */
  datatype Split = Split(arg: string, rest: string)

  function Prepend(prefix: string, s: Split): Split {
    Split(prefix + s.arg, s.rest)
  }

  /** `s` without its leading separators. */
  function SkipBlanks(s: string): (r: string)
    ensures |r| <= |s|
    ensures r == [] || !IsBlank(r[0])
  {
    if |s| > 0 && IsBlank(s[0]) then SkipBlanks(s[1..]) else s
  }

  /**
   Reads one argument from the front of `s`, `quoted` telling whether a quoted
   region is open; stops at the first separator outside quotes.
   */
  function ParseArg(s: string, quoted: bool): (r: Split)
    ensures |r.rest| <= |s|
    ensures |s| > 0 && (quoted || !IsBlank(s[0])) ==> |r.rest| < |s|
    decreases |s|
  {
    if |s| == 0 then Split([], [])
    else if s[0] == '\\' then
      var n := LeadingBackslashes(s);
      if n < |s| && s[n] == '"' then
        if n % 2 == 0 then Prepend(Backslashes(n / 2), ParseArg(s[n..], quoted))
        else Prepend(Backslashes(n / 2) + ['"'], ParseArg(s[n + 1..], quoted))
      else Prepend(Backslashes(n), ParseArg(s[n..], quoted))
    else if s[0] == '"' then
      if quoted && |s| > 1 && s[1] == '"' then Prepend(['"'], ParseArg(s[2..], quoted))
      else ParseArg(s[1..], !quoted)
    else if IsBlank(s[0]) && !quoted then Split([], s)
    else Prepend([s[0]], ParseArg(s[1..], quoted))
  }

  /** Splits a whole argument string into its arguments. */
  function ParseArgs(s: string): (argv: seq<string>)
    ensures |s| == 0 ==> argv == []
    decreases |s|
  {
    var t := SkipBlanks(s);
    if |t| == 0 then []
    else
      var first := ParseArg(t, false);
      [first.arg] + ParseArgs(first.rest)
  }

  /** Where an argument ends: at the end of the text or at a separator. */
  predicate EndsArgument(rest: string) {
    rest == [] || IsBlank(rest[0])
  }

  lemma AtEnd(rest: string)
    requires EndsArgument(rest)
    ensures ParseArg(rest, false) == Split([], rest)
  {
  }

  /** An argument that needs no quoting is read back as it is. */
  lemma {:induction false} ParsePlain(a: string, rest: string)
    requires forall i :: 0 <= i < |a| ==> !IsSpecial(a[i])
    requires EndsArgument(rest)
    ensures ParseArg(a + rest, false) == Split(a, rest)
    decreases |a|
  {
    if |a| == 0 {
      assert a + rest == rest;
      AtEnd(rest);
    } else if a[0] == '\\' {
      var n := LeadingBackslashes(a);
      var tail := a[n..];
      SplitAtRun(a);
      ParsePlain(tail, rest);
      assert tail == [] || (tail[0] != '\\' && tail[0] != '"');
      PlainRun(n, tail, rest);
    } else {
      ParsePlain(a[1..], rest);
      PlainChar(a, rest);
    }
  }

  /** `ParsePlain` past a run of backslashes, from what it gives for the rest. */
  lemma PlainRun(n: nat, tail: string, rest: string)
    requires tail == [] || (tail[0] != '\\' && tail[0] != '"')
    requires EndsArgument(rest)
    requires ParseArg(tail + rest, false) == Split(tail, rest)
    ensures ParseArg(Backslashes(n) + tail + rest, false) == Split(Backslashes(n) + tail, rest)
  {
    Assoc(Backslashes(n), tail, rest);
    if tail == [] {
      assert tail + rest == rest;
    }
    ParseRunThen(n, tail + rest, false);
  }

  /** `ParsePlain` past one ordinary character, from what it gives for the rest. */
  lemma PlainChar(a: string, rest: string)
    requires |a| > 0 && a[0] != '\\' && !IsSpecial(a[0])
    requires ParseArg(a[1..] + rest, false) == Split(a[1..], rest)
    ensures ParseArg(a + rest, false) == Split(a, rest)
  {
    var c, t := a[0], a[1..];
    assert a == [c] + t;
    Assoc([c], t, rest);
    ParseLiteral(c, t + rest, false);
  }

  /** `ParseArg` unfolded once at a run of `n` backslashes at the front of `s`. */
  lemma ParseAfterRun(s: string, n: nat, quoted: bool)
    requires 0 < n <= |s| && LeadingBackslashes(s) == n
    ensures n < |s| && s[n] == '"' && n % 2 == 0 ==>
              ParseArg(s, quoted) == Prepend(Backslashes(n / 2), ParseArg(s[n..], quoted))
    ensures n < |s| && s[n] == '"' && n % 2 == 1 ==>
              ParseArg(s, quoted) == Prepend(Backslashes(n / 2) + ['"'], ParseArg(s[n + 1..], quoted))
    ensures n == |s| || s[n] != '"' ==>
              ParseArg(s, quoted) == Prepend(Backslashes(n), ParseArg(s[n..], quoted))
  {
  }

  /** An ordinary character is copied into the argument. */
  lemma ParseLiteral(c: char, x: string, quoted: bool)
    requires c != '\\' && c != '"' && (quoted || !IsBlank(c))
    ensures ParseArg([c] + x, quoted) == Prepend([c], ParseArg(x, quoted))
  {
    assert ([c] + x)[1..] == x;
  }

  /** The closing quote, outside any escape, ends the argument. */
  lemma ParseClosingQuote(rest: string)
    requires EndsArgument(rest)
    ensures ParseArg(['"'] + rest, true) == Split([], rest)
  {
    assert (['"'] + rest)[1..] == rest;
    AtEnd(rest);
  }

  /** A trailing run of 2N backslashes before the closing quote reads back as N. */
  lemma ParseClosingRun(n: nat, rest: string)
    requires EndsArgument(rest)
    ensures ParseArg(Backslashes(2 * n) + ['"'] + rest, true) == Split(Backslashes(n), rest)
  {
    var q := ['"'] + rest;
    var s := Backslashes(2 * n) + q;
    assert Backslashes(2 * n) + ['"'] + rest == s;
    ParseClosingQuote(rest);
    if n > 0 {
      assert (2 * n) / 2 == n && (2 * n) % 2 == 0;
      LeadingRun(2 * n, q);
      ParseAfterRun(s, 2 * n, true);
      assert s[2 * n..] == q;
      assert Backslashes(n) + [] == Backslashes(n);
    } else {
      assert s == q;
    }
  }

  /** An escaped quote (2N+1 backslashes and the quote) reads back as N backslashes and the quote. */
  lemma ParseQuoteStep(n: nat, tail: string, rest: string)
    requires ParseArg(Escape(tail) + ['"'] + rest, true) == Split(tail, rest)
    ensures ParseArg(Escape(Backslashes(n) + ['"'] + tail) + ['"'] + rest, true)
            == Split(Backslashes(n) + ['"'] + tail, rest)
  {
    EscapeQuoteRun(n, tail);
    Regroup5(Backslashes(2 * n + 1), ['"'], Escape(tail), ['"'], rest);
    ParseQuoteRun(n, Escape(tail) + ['"'] + rest, tail, rest);
  }

  lemma Regroup5(a: string, b: string, c: string, d: string, e: string)
    ensures a + b + c + d + e == a + (b + (c + d + e))
  {
  }

  /** `ParseQuoteStep` with the escaped remainder left abstract. */
  lemma ParseQuoteRun(n: nat, after: string, tail: string, rest: string)
    requires ParseArg(after, true) == Split(tail, rest)
    ensures ParseArg(Backslashes(2 * n + 1) + (['"'] + after), true) == Split(Backslashes(n) + ['"'] + tail, rest)
  {
    var k := 2 * n + 1;
    var s := Backslashes(k) + (['"'] + after);
    assert k / 2 == n && k % 2 == 1;
    LeadingRun(k, ['"'] + after);
    assert s[k] == '"';
    assert s[k + 1..] == after;
    ParseAfterRun(s, k, true);
  }

  /** Backslashes before a character other than a quote are copied literally. */
  lemma ParseRunThen(n: nat, x: string, quoted: bool)
    requires x == [] || (x[0] != '\\' && x[0] != '"')
    ensures ParseArg(Backslashes(n) + x, quoted) == Prepend(Backslashes(n), ParseArg(x, quoted))
  {
    var s := Backslashes(n) + x;
    if n > 0 {
      LeadingRun(n, x);
      ParseAfterRun(s, n, quoted);
      assert s[n..] == x;
    } else {
      assert s == x;
    }
  }

  /** A run of backslashes before any other character reads back unchanged. */
  lemma ParseOtherStep(n: nat, c: char, tail: string, rest: string)
    requires c != '\\' && c != '"'
    requires ParseArg(Escape(tail) + ['"'] + rest, true) == Split(tail, rest)
    ensures ParseArg(Escape(Backslashes(n) + [c] + tail) + ['"'] + rest, true)
            == Split(Backslashes(n) + [c] + tail, rest)
  {
    EscapeOtherRun(n, c, tail);
    ParseOtherRun(n, c, Escape(tail) + ['"'] + rest, tail, rest);
    RegroupRun(Backslashes(n), c, Escape(tail), rest);
  }

  /** `ParseOtherStep` with the escaped remainder left abstract. */
  lemma ParseOtherRun(n: nat, c: char, after: string, tail: string, rest: string)
    requires c != '\\' && c != '"'
    requires ParseArg(after, true) == Split(tail, rest)
    ensures ParseArg(Backslashes(n) + ([c] + after), true) == Split(Backslashes(n) + [c] + tail, rest)
  {
    ParseLiteral(c, after, true);
    ParseRunThen(n, [c] + after, true);
    PrependTwice(Backslashes(n), [c], ParseArg(after, true), ParseArg([c] + after, true),
                 ParseArg(Backslashes(n) + ([c] + after), true));
  }

  /** Two prefixes put in front of a parsed argument, one after the other. */
  lemma PrependTwice(outer: string, inner: string, x: Split, y: Split, z: Split)
    requires y == Prepend(inner, x) && z == Prepend(outer, y)
    ensures z == Split(outer + inner + x.arg, x.rest)
  {
    assert outer + (inner + x.arg) == outer + inner + x.arg;
  }

  lemma RegroupRun(run: string, c: char, body: string, rest: string)
    ensures run + [c] + body + ['"'] + rest == run + ([c] + (body + ['"'] + rest))
  {
  }

  /** Inside quotes, the escaped body and the closing quote read back as the argument. */
  lemma {:induction false} ParseEscaped(a: string, rest: string)
    requires EndsArgument(rest)
    ensures ParseArg(Escape(a) + ['"'] + rest, true) == Split(a, rest)
    decreases |a|
  {
    var n := LeadingBackslashes(a);
    SplitAtRun(a);
    if n == |a| {
      assert a == Backslashes(n);
      EscapeTrailingRun(n);
      ParseClosingRun(n, rest);
    } else {
      var c := a[n];
      var tail := a[n + 1..];
      assert a == Backslashes(n) + [c] + tail;
      ParseEscaped(tail, rest);
      if c == '"' {
        ParseQuoteStep(n, tail, rest);
      } else {
        ParseOtherStep(n, c, tail, rest);
      }
    }
  }

  /** Every encoded argument, quoted or not, reads back as the argument. */
  lemma QuoteRoundTrip(a: string, force: bool, rest: string)
    requires EndsArgument(rest)
    ensures ParseArg(Quote(a, force) + rest, false) == Split(a, rest)
    ensures |Quote(a, force)| > 0 && !IsBlank(Quote(a, force)[0])
  {
    if !force && !NeedsQuoting(a) {
      PlainRoundTrip(a, rest);
    } else {
      QuotedRoundTrip(a, rest);
    }
  }

  lemma PlainRoundTrip(a: string, rest: string)
    requires !NeedsQuoting(a) && EndsArgument(rest)
    ensures ParseArg(a + rest, false) == Split(a, rest)
    ensures |a| > 0 && !IsBlank(a[0])
  {
    ParsePlain(a, rest);
  }

  lemma QuotedRoundTrip(a: string, rest: string)
    requires EndsArgument(rest)
    ensures ParseArg((['"'] + Escape(a) + ['"']) + rest, false) == Split(a, rest)
  {
    var body := Escape(a) + ['"'] + rest;
    assert (['"'] + Escape(a) + ['"']) + rest == ['"'] + body;
    OpeningQuote(body);
    ParseEscaped(a, rest);
  }

  /** An opening quote outside quotes is dropped and opens a quoted region. */
  lemma OpeningQuote(body: string)
    ensures ParseArg(['"'] + body, false) == ParseArg(body, true)
  {
    assert (['"'] + body)[1..] == body;
  }

  /** A leading separator changes nothing about the arguments that follow it. */
  lemma ParseArgsAfterBlank(s: string)
    requires |s| > 0 && !IsBlank(s[0])
    ensures ParseArgs(" " + s) == ParseArgs(s)
  {
    assert (" " + s)[1..] == s;
  }

  /** The first encoded argument, then a space and more text. */
  lemma ParseArgsCons(a: string, more: string)
    requires |more| > 0 && !IsBlank(more[0])
    ensures ParseArgs(Quote(a, false) + (" " + more)) == [a] + ParseArgs(more)
  {
    QuoteRoundTrip(a, false, " " + more);
    ParseArgsAfterBlank(more);
  }

  /** A lone encoded argument. */
  lemma ParseArgsSingle(a: string)
    ensures ParseArgs(Quote(a, false)) == [a]
  {
    QuoteRoundTrip(a, false, []);
    assert Quote(a, false) + [] == Quote(a, false);
  }

  /** Round trip: reading `RunProcess`'s argument string yields the original arguments. */
  lemma {:induction false} JoinArgsRoundTrip(args: seq<string>)
    ensures ParseArgs(JoinArgs(args)) == args
  {
    if |args| == 1 {
      ParseArgsSingle(args[0]);
    } else if |args| > 1 {
      var tail := JoinArgs(args[1..]);
      QuoteRoundTrip(args[1], false, []);
      assert |tail| > 0 && !IsBlank(tail[0]);
      assert JoinArgs(args) == Quote(args[0], false) + (" " + tail);
      ParseArgsCons(args[0], tail);
      JoinArgsRoundTrip(args[1..]);
      assert args == [args[0]] + args[1..];
    }
  }
}

=== FILE: dispose_observable.dfy ===
/**
 The signal that fires when a `ProcessOutput` is disposed
 (`DisposeObservable`): a list of observers, each added by `Subscribe` and
 taken out again by the handle `Subscribe` returns, and a `Dispose` that
 sends every observer subscribed at that moment one value and then
 completion.

 Observers are identified by number. As in the source the list may hold
 the same observer twice, and a handle removes only the first equal entry.
 */
module DisposeObservable {

  /** A notification delivered to an observer. */
  datatype Event = Next(observer: nat) | Completed(observer: nat)

  /** The observers, in subscription order. */
  datatype Signal = Signal(observers: seq<nat>)

  /** The handle `Subscribe` returns; `released` records that its action has run. */
  datatype Handle = Handle(observer: nat, released: bool)

  /** `xs` with its first `x` taken out (`List.Remove`); unchanged when there is none. */
  function RemoveFirst(xs: seq<nat>, x: nat): seq<nat>
  {
    if |xs| == 0 then []
    else if xs[0] == x then xs[1..]
    else [xs[0]] + RemoveFirst(xs[1..], x)
  }

  /** The number of entries before the first `x` (all of `xs` when there is none). */
  function FirstIndex(xs: seq<nat>, x: nat): (i: nat)
    ensures i <= |xs|
    ensures forall k :: 0 <= k < i ==> xs[k] != x
    ensures i < |xs| ==> xs[i] == x
  {
    if |xs| == 0 || xs[0] == x then 0 else 1 + FirstIndex(xs[1..], x)
  }

  /** Removing an entry in front of which no equal entry stands. */
  lemma {:induction false} RemoveFirstAt(a: seq<nat>, x: nat, b: seq<nat>)
    requires x !in a
    ensures RemoveFirst(a + [x] + b, x) == a + b
  {
    if |a| == 0 {
      assert a + [x] + b == [x] + b;
    } else {
      assert (a + [x] + b)[1..] == a[1..] + [x] + b;
      RemoveFirstAt(a[1..], x, b);
      assert a + b == [a[0]] + (a[1..] + b);
    }
  }

  lemma {:induction false} RemoveAbsent(xs: seq<nat>, x: nat)
    requires x !in xs
    ensures RemoveFirst(xs, x) == xs
  {
    if |xs| > 0 {
      RemoveAbsent(xs[1..], x);
      assert xs == [xs[0]] + xs[1..];
    }
  }

  /**
   Removing `x` changes nothing when `x` is absent, and otherwise takes out
   one entry, so the multiset loses one `x`.
   */
  lemma RemoveFirstDeletes(xs: seq<nat>, x: nat)
    ensures x !in xs ==> RemoveFirst(xs, x) == xs
    ensures multiset(RemoveFirst(xs, x)) == multiset(xs) - multiset{x}
  {
    var i := FirstIndex(xs, x);
    if i < |xs| {
      RemovePresent(xs, x, i);
      assert x in xs;
    } else {
      assert x !in xs;
      RemoveAbsent(xs, x);
      assert multiset(xs) - multiset{x} == multiset(xs);
    }
  }

  /** When the first `x` stands at `i`, exactly that entry is taken out. */
  lemma RemovePresent(xs: seq<nat>, x: nat, i: nat)
    requires i < |xs| && xs[i] == x && forall k :: 0 <= k < i ==> xs[k] != x
    ensures RemoveFirst(xs, x) == xs[..i] + xs[i + 1..]
    ensures multiset(RemoveFirst(xs, x)) == multiset(xs) - multiset{x}
  {
    var a, b := xs[..i], xs[i + 1..];
    assert xs == a + [x] + b;
    RemoveFirstAt(a, x, b);
    DropOne(a, x, b);
  }

  lemma DropOne(a: seq<nat>, x: nat, b: seq<nat>)
    ensures multiset(a + b) == multiset(a + [x] + b) - multiset{x}
  {
    assert multiset(a + [x] + b) == multiset(a) + multiset{x} + multiset(b);
  }

  /** `Subscribe`: the observer is added at the end, and a live handle for it is returned. */
  function Subscribe(s: Signal, observer: nat): (r: (Signal, Handle))
    ensures |r.0.observers| == |s.observers| + 1 && r.0.observers[|s.observers|] == observer
    ensures r.0.observers[..|s.observers|] == s.observers
    ensures r.1 == Handle(observer, false)
  {
    (Signal(s.observers + [observer]), Handle(observer, false))
  }

  /**
   Disposing a handle removes its observer's first entry the first time and
   does nothing afterwards: the action of `Disposable.Create` runs once.
   */
  function Release(s: Signal, h: Handle): (r: (Signal, Handle))
    ensures r.1 == Handle(h.observer, true)
    ensures h.released ==> r.0 == s
    ensures !h.released ==> r.0.observers == RemoveFirst(s.observers, h.observer)
  {
    if h.released then (s, h) else (Signal(RemoveFirst(s.observers, h.observer)), Handle(h.observer, true))
  }

  /**
   Subscribing and then disposing the handle gives back the same observers
   when the observer was not already subscribed. Otherwise it is the earlier
   entry that goes, so only the multiset is kept.
   */
  lemma SubscribeRelease(s: Signal, observer: nat)
    ensures var (s1, h) := Subscribe(s, observer);
            var (s2, _) := Release(s1, h);
            multiset(s2.observers) == multiset(s.observers)
            && (observer !in s.observers ==> s2 == s)
  {
    var (s1, h) := Subscribe(s, observer);
    RemoveFirstDeletes(s1.observers, observer);
    if observer !in s.observers {
      RemoveFirstAt(s.observers, observer, []);
      assert s.observers + [observer] + [] == s1.observers;
      assert s.observers + [] == s.observers;
    }
  }

  /** Disposing a handle a second time changes nothing. */
  lemma ReleaseTwice(s: Signal, h: Handle)
    ensures var (s1, h1) := Release(s, h);
            Release(s1, h1) == (s1, h1)
  {
  }

  /** The observers of `xs` that are not in `leaving`, in order. */
  function Keep(xs: seq<nat>, leaving: set<nat>): (r: seq<nat>)
    ensures forall k :: 0 <= k < |r| ==> r[k] !in leaving
  {
    if |xs| == 0 then []
    else Keep(xs[..|xs| - 1], leaving) + (if xs[|xs| - 1] in leaving then [] else [xs[|xs| - 1]])
  }

  /**
   One step of `Dispose` on the live list `Keep(xs[..i]) + xs[i..]`: a leaving
   observer's own entry is the first equal one, so removing it gives the same
   shape one step further.
   */
  lemma KeepStep(xs: seq<nat>, i: nat, leaving: set<nat>)
    requires i < |xs|
    ensures xs[i] in leaving ==>
              RemoveFirst(Keep(xs[..i], leaving) + xs[i..], xs[i]) == Keep(xs[..i + 1], leaving) + xs[i + 1..]
    ensures xs[i] !in leaving ==>
              Keep(xs[..i], leaving) + xs[i..] == Keep(xs[..i + 1], leaving) + xs[i + 1..]
  {
    var kept := Keep(xs[..i], leaving);
    assert xs[..i + 1][..i] == xs[..i];
    assert Keep(xs[..i + 1], leaving) == kept + (if xs[i] in leaving then [] else [xs[i]]);
    assert xs[i..] == [xs[i]] + xs[i + 1..];
    assert kept + xs[i..] == kept + [xs[i]] + xs[i + 1..];
    if xs[i] in leaving {
      RemoveFirstAt(kept, xs[i], xs[i + 1..]);
      assert kept + [] == kept;
    }
  }

  /** The notifications `Dispose` sends to `xs`, in order: a value, then completion, per entry. */
  function Notify(xs: seq<nat>): seq<Event>
  {
    if |xs| == 0 then [] else Notify(xs[..|xs| - 1]) + [Next(xs[|xs| - 1]), Completed(xs[|xs| - 1])]
  }

  lemma NotifyStep(xs: seq<nat>, i: nat)
    requires i < |xs|
    ensures Notify(xs[..i + 1]) == Notify(xs[..i]) + [Next(xs[i]), Completed(xs[i])]
  {
    assert xs[..i + 1][..i] == xs[..i];
  }

  /** Each observer receives its value and its completion next to each other, in list order. */
  lemma {:induction false} NotifyShape(xs: seq<nat>)
    ensures |Notify(xs)| == 2 * |xs|
    ensures forall i :: 0 <= i < |xs| ==>
              Notify(xs)[2 * i] == Next(xs[i]) && Notify(xs)[2 * i + 1] == Completed(xs[i])
  {
    if |xs| > 0 {
      var init := xs[..|xs| - 1];
      NotifyShape(init);
      forall i | 0 <= i < |xs|
        ensures Notify(xs)[2 * i] == Next(xs[i]) && Notify(xs)[2 * i + 1] == Completed(xs[i])
      {
        if i < |init| {
          assert init[i] == xs[i];
        }
      }
    }
  }

  /**
   `Dispose` walks a copy of the list taken before the first notification,
   sending each observer a value and then completion. An observer in
   `leaving` disposes its own handle when notified, which takes its entry
   out of the live list; the copy keeps every observer of the moment
   notified all the same. The live list is not cleared.
   */
  method Dispose(s: Signal, leaving: set<nat>) returns (events: seq<Event>, after: Signal)
    ensures |events| == 2 * |s.observers|
    ensures forall i :: 0 <= i < |s.observers| ==>
              events[2 * i] == Next(s.observers[i]) && events[2 * i + 1] == Completed(s.observers[i])
    ensures after.observers == Keep(s.observers, leaving)
  {
    var snapshot := s.observers;
    var live := s.observers;
    events := [];
    var i := 0;
    while i < |snapshot|
      invariant 0 <= i <= |snapshot|
      invariant events == Notify(snapshot[..i])
      invariant live == Keep(snapshot[..i], leaving) + snapshot[i..]
    {
      var observer := snapshot[i];
      events := events + [Next(observer), Completed(observer)];
      NotifyStep(snapshot, i);
      KeepStep(snapshot, i, leaving);
      if observer in leaving {
        live := RemoveFirst(live, observer);
      }
      i := i + 1;
    }
    assert snapshot[..i] == snapshot;
    assert snapshot[i..] == [];
    NotifyShape(snapshot);
    after := Signal(live);
  }
}

=== FILE: log_path.dfy ===
/**
 Where a process's output is logged (`ProcessOutput.GetLogPath` and
 `GetLogBaseDir`): `<local application data>\RunInTray\<sanitised friendly
 name>\<yyyy-MM-dd_HH-mm-ss>.log`.

 The friendly name is made safe for the file system by the source's chain of
 nine `Replace` calls; the model keeps that chain as written and proves it
 equal to a per-character map. Path joining follows `Path.Combine` on
 Windows, and the clock reading is a `Timestamp` parameter.
 */
module LogPath {

  /** `s` with every occurrence of `c` replaced by `with` (`String.Replace`). */
  function ReplaceAll(s: string, c: char, with: string): (r: string)
  {
    if |s| == 0 then []
    else (if s[0] == c then with else [s[0]]) + ReplaceAll(s[1..], c, with)
  }

  /** The replacements of the source, in the order they are applied. */
  const Replacements: seq<(char, string)> := [
    ('"', "'"), ('<', ""), ('>', ""), ('|', ""), (':', ""), ('*', ""), ('?', ""),
    ('\\', "-"), ('/', "-")
  ]

  function ReplaceEach(s: string, rules: seq<(char, string)>): string
    decreases |rules|
  {
    if |rules| == 0 then s else ReplaceEach(ReplaceAll(s, rules[0].0, rules[0].1), rules[1..])
  }

  /** The friendly name made safe for use as a directory name, as the source computes it. */
  function Sanitize(name: string): string {
    ReplaceEach(name, Replacements)
  }

  /** The characters the sanitiser removes or rewrites. */
  predicate IsUnsafe(c: char) {
    c == '"' || c == '<' || c == '>' || c == '|' || c == ':' || c == '*' || c == '?' || c == '\\' || c == '/'
  }

  /** The reference map: what becomes of each character. */
  function SanitizeChar(c: char): (r: string)
    ensures forall i :: 0 <= i < |r| ==> !IsUnsafe(r[i])
    ensures !IsUnsafe(c) ==> r == [c]
  {
    if c == '"' then "'"
    else if c == '\\' || c == '/' then "-"
    else if IsUnsafe(c) then ""
    else [c]
  }

  function MapChars(s: string): string {
    if |s| == 0 then [] else SanitizeChar(s[0]) + MapChars(s[1..])
  }

  lemma {:induction false} ReplaceAllAppend(a: string, b: string, c: char, with: string)
    ensures ReplaceAll(a + b, c, with) == ReplaceAll(a, c, with) + ReplaceAll(b, c, with)
  {
    if |a| == 0 {
      assert a + b == b;
    } else {
      assert (a + b)[1..] == a[1..] + b;
      ReplaceAllAppend(a[1..], b, c, with);
    }
  }

  lemma {:induction false} ReplaceEachAppend(a: string, b: string, rules: seq<(char, string)>)
    ensures ReplaceEach(a + b, rules) == ReplaceEach(a, rules) + ReplaceEach(b, rules)
    decreases |rules|
  {
    if |rules| > 0 {
      ReplaceAllAppend(a, b, rules[0].0, rules[0].1);
      ReplaceEachAppend(ReplaceAll(a, rules[0].0, rules[0].1), ReplaceAll(b, rules[0].0, rules[0].1), rules[1..]);
    }
  }

  lemma ReplaceAllSingle(x: char, c: char, with: string)
    ensures ReplaceAll([x], c, with) == if x == c then with else [x]
  {
    assert [x][1..] == [];
  }

  /** The replacement of the first rule that names `x`, or `x` itself if none does. */
  function FirstMatch(x: char, rules: seq<(char, string)>): string
  {
    if |rules| == 0 then [x] else if rules[0].0 == x then rules[0].1 else FirstMatch(x, rules[1..])
  }

  /** Every rule rewrites an unsafe character into safe ones. */
  predicate SafeRules(rules: seq<(char, string)>) {
    forall k :: 0 <= k < |rules| ==>
      IsUnsafe(rules[k].0) && forall i :: 0 <= i < |rules[k].1| ==> !IsUnsafe(rules[k].1[i])
  }

  lemma {:induction false} ReplaceAllSafe(s: string, c: char, with: string)
    requires IsUnsafe(c) && forall i :: 0 <= i < |s| ==> !IsUnsafe(s[i])
    ensures ReplaceAll(s, c, with) == s
  {
    if |s| > 0 {
      ReplaceAllSafe(s[1..], c, with);
      assert s == [s[0]] + s[1..];
    }
  }

  /** Safe text passes through safe rules unchanged. */
  lemma {:induction false} ReplaceEachSafe(s: string, rules: seq<(char, string)>)
    requires SafeRules(rules) && forall i :: 0 <= i < |s| ==> !IsUnsafe(s[i])
    ensures ReplaceEach(s, rules) == s
    decreases |rules|
  {
    if |rules| > 0 {
      ReplaceAllSafe(s, rules[0].0, rules[0].1);
      assert SafeRules(rules[1..]) by {
        forall k | 0 <= k < |rules[1..]|
          ensures rules[1..][k] == rules[k + 1]
        {
        }
      }
      ReplaceEachSafe(s, rules[1..]);
    }
  }

  /** One character through a chain of safe rules: the first rule naming it decides. */
  lemma {:induction false} ReplaceEachSingle(x: char, rules: seq<(char, string)>)
    requires SafeRules(rules)
    ensures ReplaceEach([x], rules) == FirstMatch(x, rules)
    decreases |rules|
  {
    if |rules| > 0 {
      ReplaceAllSingle(x, rules[0].0, rules[0].1);
      assert SafeRules(rules[1..]) by {
        forall k | 0 <= k < |rules[1..]|
          ensures rules[1..][k] == rules[k + 1]
        {
        }
      }
      if rules[0].0 == x {
        ReplaceEachSafe(rules[0].1, rules[1..]);
      } else {
        ReplaceEachSingle(x, rules[1..]);
      }
    }
  }

  /** One character through the whole chain is the reference map of that character. */
  lemma SanitizeSingle(x: char)
    ensures Sanitize([x]) == SanitizeChar(x)
  {
    assert SafeRules(Replacements);
    ReplaceEachSingle(x, Replacements);
    FirstMatchSanitize(x, Replacements, 0);
  }

  /** `FirstMatch` on the source's rules, from rule `k` on. */
  lemma {:induction false} FirstMatchSanitize(x: char, rules: seq<(char, string)>, k: nat)
    requires rules == Replacements && k <= |rules|
    requires forall j :: 0 <= j < k ==> rules[j].0 != x
    ensures FirstMatch(x, rules[k..]) == SanitizeChar(x)
    decreases |rules| - k
  {
    if k < |rules| {
      assert rules[k..][1..] == rules[k + 1..];
      if rules[k].0 != x {
        FirstMatchSanitize(x, rules, k + 1);
      }
    } else {
      assert rules[0].0 != x && rules[1].0 != x && rules[2].0 != x && rules[3].0 != x && rules[4].0 != x;
      assert rules[5].0 != x && rules[6].0 != x && rules[7].0 != x && rules[8].0 != x;
    }
  }

  /** The source's chain of replacements is the per-character map. */
  lemma {:induction false} SanitizeIsCharMap(name: string)
    ensures Sanitize(name) == MapChars(name)
  {
    if |name| > 0 {
      assert name == [name[0]] + name[1..];
      ReplaceEachAppend([name[0]], name[1..], Replacements);
      SanitizeSingle(name[0]);
      SanitizeIsCharMap(name[1..]);
    }
  }

  lemma {:induction false} MapCharsSafe(s: string)
    ensures forall i :: 0 <= i < |MapChars(s)| ==> !IsUnsafe(MapChars(s)[i])
  {
    if |s| > 0 {
      MapCharsSafe(s[1..]);
      var head := SanitizeChar(s[0]);
      var rest := MapChars(s[1..]);
      forall i | 0 <= i < |head + rest|
        ensures !IsUnsafe((head + rest)[i])
      {
        if i >= |head| {
          assert (head + rest)[i] == rest[i - |head|];
        }
      }
    }
  }

  /** Characters that are already safe are kept as they are, in order. */
  lemma {:induction false} MapCharsKeepsSafe(s: string)
    requires forall i :: 0 <= i < |s| ==> !IsUnsafe(s[i])
    ensures MapChars(s) == s
  {
    if |s| > 0 {
      MapCharsKeepsSafe(s[1..]);
      assert s == [s[0]] + s[1..];
    }
  }

  lemma {:induction false} MapCharsAppend(a: string, b: string)
    ensures MapChars(a + b) == MapChars(a) + MapChars(b)
  {
    if |a| == 0 {
      assert a + b == b;
    } else {
      assert (a + b)[1..] == a[1..] + b;
      MapCharsAppend(a[1..], b);
    }
  }

  /**
   The sanitised name holds none of `" < > | : * ? \ /`; `"` becomes `'`,
   `\` and `/` become `-`, the other six are deleted, and everything else is
   kept in order.
   */
  lemma SanitizeMapsCharacters(name: string, c: char)
    ensures forall i :: 0 <= i < |Sanitize(name)| ==> !IsUnsafe(Sanitize(name)[i])
    ensures Sanitize(name + [c]) == Sanitize(name) + SanitizeChar(c)
    ensures Sanitize([c]) == (if c == '"' then "'" else if c == '\\' || c == '/' then "-"
                              else if IsUnsafe(c) then "" else [c])
  {
    SanitizeIsCharMap(name);
    SanitizeIsCharMap(name + [c]);
    SanitizeSingle(c);
    MapCharsSafe(name);
    MapCharsAppend(name, [c]);
    assert MapChars([c]) == SanitizeChar(c) + MapChars([]);
  }

  /** Sanitising twice is sanitising once. */
  lemma SanitizeIdempotent(name: string)
    ensures Sanitize(Sanitize(name)) == Sanitize(name)
  {
    SanitizeIsCharMap(name);
    SanitizeIsCharMap(Sanitize(name));
    MapCharsSafe(name);
    MapCharsKeepsSafe(MapChars(name));
  }

  // ----- Paths -----

  predicate IsSeparator(c: char) {
    c == '\\' || c == '/'
  }

  /** A rooted path starts with a separator or a drive letter and colon. */
  predicate IsRooted(p: string) {
    (|p| >= 1 && IsSeparator(p[0])) || (|p| >= 2 && p[1] == ':')
  }

  /**
   `Path.Combine` of two parts: an empty part gives the other; a rooted second
   part replaces the first; a separator is inserted unless the first ends
   with a separator or a colon.
   */
  function Combine(first: string, second: string): string {
    if |second| == 0 then first
    else if |first| == 0 then second
    else if IsRooted(second) then second
    else if IsSeparator(first[|first| - 1]) || first[|first| - 1] == ':' then first + second
    else first + "\\" + second
  }

  const AppName: string := "RunInTray"

  /** The base log directory under the user's local application data folder. */
  function LogBaseDir(localAppData: string): (r: string)
    ensures |r| >= |AppName| && r[|r| - |AppName|..] == AppName
    ensures |localAppData| == 0 ==> r == AppName
    ensures |r| >= |localAppData| && (|localAppData| > 0 ==> r[..|localAppData|] == localAppData)
  {
    Combine(localAppData, AppName)
  }

  // ----- Timestamps -----

  /** A clock reading, as the fields the format uses. */
  datatype Timestamp = Timestamp(year: nat, month: nat, day: nat, hour: nat, minute: nat, second: nat)

  predicate ValidTimestamp(t: Timestamp) {
    1 <= t.year <= 9999 && 1 <= t.month <= 12 && 1 <= t.day <= 31
    && t.hour < 24 && t.minute < 60 && t.second < 60
  }

  function Pow10(w: nat): (r: nat)
    ensures r >= 1
  {
    if w == 0 then 1 else 10 * Pow10(w - 1)
  }

  predicate IsDigit(c: char) {
    '0' <= c <= '9'
  }

  /** `n` in decimal, zero-padded to exactly `width` digits. */
  function Digits(n: nat, width: nat): (r: string)
    requires n < Pow10(width)
    ensures |r| == width
    ensures forall i :: 0 <= i < |r| ==> IsDigit(r[i])
  {
    if width == 0 then []
    else Digits(n / 10, width - 1) + [(('0' as int) + n % 10) as char]
  }

  /** The value of a string of decimal digits. */
  function DigitsValue(s: string): nat {
    if |s| == 0 then 0
    else 10 * DigitsValue(s[..|s| - 1]) + ((s[|s| - 1] as int) - ('0' as int)) % 10
  }

  lemma {:induction false} DigitsRoundTrip(n: nat, width: nat)
    requires n < Pow10(width)
    ensures DigitsValue(Digits(n, width)) == n
  {
    if width > 0 {
      var d := Digits(n, width);
      DigitsRoundTrip(n / 10, width - 1);
      assert d[..|d| - 1] == Digits(n / 10, width - 1);
    }
  }

  /** The timestamp in the shape `yyyy-MM-dd_HH-mm-ss`. */
  function FormatTimestamp(t: Timestamp): (r: string)
    requires ValidTimestamp(t)
    ensures |r| == 19
    ensures r[4] == '-' && r[7] == '-' && r[10] == '_' && r[13] == '-' && r[16] == '-'
    ensures forall i :: 0 <= i < 19 && i !in {4, 7, 10, 13, 16} ==> IsDigit(r[i])
  {
    var s := Digits(t.year, 4) + "-" + Digits(t.month, 2) + "-" + Digits(t.day, 2) + "_"
      + Digits(t.hour, 2) + "-" + Digits(t.minute, 2) + "-" + Digits(t.second, 2);
    assert forall i :: 0 <= i < 4 ==> s[i] == Digits(t.year, 4)[i];
    s
  }

  /** Reads a timestamp back from its fixed-position fields. */
  function ParseTimestamp(s: string): Timestamp
    requires |s| == 19
  {
    Timestamp(DigitsValue(s[0..4]), DigitsValue(s[5..7]), DigitsValue(s[8..10]),
              DigitsValue(s[11..13]), DigitsValue(s[14..16]), DigitsValue(s[17..19]))
  }

  lemma TimestampRoundTrip(t: Timestamp)
    requires ValidTimestamp(t)
    ensures ParseTimestamp(FormatTimestamp(t)) == t
  {
    var s := FormatTimestamp(t);
    assert s[0..4] == Digits(t.year, 4);
    assert s[5..7] == Digits(t.month, 2);
    assert s[8..10] == Digits(t.day, 2);
    assert s[11..13] == Digits(t.hour, 2);
    assert s[14..16] == Digits(t.minute, 2);
    assert s[17..19] == Digits(t.second, 2);
    DigitsRoundTrip(t.year, 4);
    DigitsRoundTrip(t.month, 2);
    DigitsRoundTrip(t.day, 2);
    DigitsRoundTrip(t.hour, 2);
    DigitsRoundTrip(t.minute, 2);
    DigitsRoundTrip(t.second, 2);
  }

  // ----- The log path -----

  /** Two `Combine` steps where neither later part is rooted. */
  lemma CombineTwice(base: string, dir: string, file: string)
    requires |base| > 0 && !IsSeparator(base[|base| - 1]) && base[|base| - 1] != ':'
    requires !IsRooted(dir) && forall i :: 0 <= i < |dir| ==> !IsUnsafe(dir[i])
    requires |file| > 0 && !IsRooted(file)
    ensures Combine(Combine(base, dir), file) == base + (if |dir| == 0 then "" else "\\" + dir) + "\\" + file
  {
    if |dir| > 0 {
      assert Combine(base, dir) == base + "\\" + dir;
      assert (base + "\\" + dir)[|base + "\\" + dir| - 1] == dir[|dir| - 1];
    }
  }

  /**
   `GetLogPath`: the base directory, the sanitised name (left out when it is
   empty) and the timestamped file name, separated by backslashes. The
   sanitised name can never be a rooted path that would replace the base.
   */
  function GetLogPath(localAppData: string, friendlyName: string, now: Timestamp): (r: string)
    requires ValidTimestamp(now)
    ensures var dir := Sanitize(friendlyName);
            r == LogBaseDir(localAppData) + (if |dir| == 0 then "" else "\\" + dir) + "\\" + (FormatTimestamp(now) + ".log")
  {
    var base := LogBaseDir(localAppData);
    var dir := Sanitize(friendlyName);
    var file := FormatTimestamp(now) + ".log";
    BaseDirEndsPlain(localAppData);
    SanitizedNotRooted(friendlyName);
    FileNameNotRooted(now);
    CombineTwice(base, dir, file);
    Combine(Combine(base, dir), file)
  }

  lemma BaseDirEndsPlain(localAppData: string)
    ensures var base := LogBaseDir(localAppData);
            |base| > 0 && !IsSeparator(base[|base| - 1]) && base[|base| - 1] != ':'
  {
    var base := LogBaseDir(localAppData);
    assert base[|base| - 1] == base[|base| - |AppName|..][|AppName| - 1];
  }

  lemma SanitizedNotRooted(name: string)
    ensures var dir := Sanitize(name);
            !IsRooted(dir) && forall i :: 0 <= i < |dir| ==> !IsUnsafe(dir[i])
  {
    SanitizeMapsCharacters(name, ' ');
  }

  lemma FileNameNotRooted(now: Timestamp)
    requires ValidTimestamp(now)
    ensures var file := FormatTimestamp(now) + ".log"; |file| > 0 && !IsRooted(file)
  {
    var t := FormatTimestamp(now);
    assert (t + ".log")[0] == t[0] && (t + ".log")[1] == t[1];
  }

  /** Two runs started at different times log to different files. */
  lemma LogPathsDiffer(localAppData: string, friendlyName: string, t1: Timestamp, t2: Timestamp)
    requires ValidTimestamp(t1) && ValidTimestamp(t2) && t1 != t2
    ensures GetLogPath(localAppData, friendlyName, t1) != GetLogPath(localAppData, friendlyName, t2)
  {
    TimestampRoundTrip(t1);
    TimestampRoundTrip(t2);
    var dir := Sanitize(friendlyName);
    var prefix := LogBaseDir(localAppData) + (if |dir| == 0 then "" else "\\" + dir) + "\\";
    FramedDiffer(prefix, FormatTimestamp(t1), FormatTimestamp(t2), ".log");
  }

  /** Two different strings of the same length stay different inside the same frame. */
  lemma FramedDiffer(prefix: string, a: string, b: string, suffix: string)
    requires |a| == |b| && a != b
    ensures prefix + (a + suffix) != prefix + (b + suffix)
  {
    assert (prefix + (a + suffix))[|prefix|..|prefix| + |a|] == a;
    assert (prefix + (b + suffix))[|prefix|..|prefix| + |b|] == b;
  }
}

=== FILE: output_capture.dfy ===
/**
 The output capture of one launched process (`ProcessOutput`).

 Each of the two streams (standard output and standard error) is a replayed
 feed: every line the process writes arrives as a `DataReceived` event whose
 data has lost its line break, the feed adds `"\r\n"` back, and a viewer
 that subscribes at any time is first replayed everything so far. The
 merged arrivals of both feeds are written to the log file. The feeds stop
 at the dispose signal (`TakeUntil`); only then do they complete, and the
 log file is closed when both have completed.

 Arrival of events, the log writer and the Rx scheduler are modelled by the
 order in which `Receive`, `Attach` and `Dispose` are applied.
 */
module OutputCapture {
  import LogPath

  datatype Option<T> = None | Some(value: T)

  datatype Stream = Stdout | Stderr

  /** What a viewer of a feed is told. */
  datatype Note = Text(text: string) | Completed

  /**
   A replayed feed: the chunks so far, whether it has completed, and what
   each attached viewer (by number) has been told.
   */
  datatype Feed = Feed(history: seq<string>, completed: bool, viewers: map<nat, seq<Note>>)

  /** The capture: both feeds, the merged arrivals, and the log file. */
  datatype Capture = Capture(
    stdout: Feed,
    stderr: Feed,
    arrivals: seq<(Stream, string)>,
    logPath: string,
    logOpen: bool,
    disposed: bool)

  const NewLine: string := "\r\n"

  /**
   The chunk a `DataReceived` event becomes: its data with the line break
   added back. At end of stream the event carries no data, and the chunk is
   the bare line break.
   */
  function Chunk(data: Option<string>): (r: string)
    ensures |r| >= 2 && r[|r| - 2..] == NewLine
    ensures data.Some? ==> r[..|r| - 2] == data.value
    ensures data.None? ==> r == NewLine
  {
    match data
    case None => NewLine
    case Some(line) => line + NewLine
  }

  /** Everything a viewer of the feed should have been told: the history, then completion if any. */
  function Transcript(f: Feed): (r: seq<Note>)
    ensures |r| == |f.history| + (if f.completed then 1 else 0)
    ensures forall i :: 0 <= i < |f.history| ==> r[i] == Text(f.history[i])
    ensures f.completed ==> r[|f.history|] == Completed
  {
    Texts(f.history) + (if f.completed then [Completed] else [])
  }

  function Texts(chunks: seq<string>): (r: seq<Note>)
    ensures |r| == |chunks|
    ensures forall i :: 0 <= i < |chunks| ==> r[i] == Text(chunks[i])
  {
    if |chunks| == 0 then [] else Texts(chunks[..|chunks| - 1]) + [Text(chunks[|chunks| - 1])]
  }

  /** Every viewer has been told exactly the transcript of the feed. */
  predicate Replayed(f: Feed) {
    forall v :: v in f.viewers ==> f.viewers[v] == Transcript(f)
  }

  /** The chunks of one stream among the merged arrivals, in order. */
  function Of(arrivals: seq<(Stream, string)>, stream: Stream): seq<string>
  {
    if |arrivals| == 0 then []
    else Of(arrivals[..|arrivals| - 1], stream)
         + (if arrivals[|arrivals| - 1].0 == stream then [arrivals[|arrivals| - 1].1] else [])
  }

  /** The text of the log file: the merged chunks in order of arrival. */
  function LogText(arrivals: seq<(Stream, string)>): string
  {
    if |arrivals| == 0 then [] else LogText(arrivals[..|arrivals| - 1]) + arrivals[|arrivals| - 1].1
  }

  function FeedOf(c: Capture, stream: Stream): Feed {
    if stream == Stdout then c.stdout else c.stderr
  }

  function Other(stream: Stream): Stream {
    if stream == Stdout then Stderr else Stdout
  }

  /**
   What the capture keeps true: each feed's history is its stream's share of
   the merged arrivals, every viewer has been told the whole transcript, the
   feeds complete and the log closes exactly when the capture is disposed.
   */
  predicate Valid(c: Capture) {
    c.stdout.history == Of(c.arrivals, Stdout)
    && c.stderr.history == Of(c.arrivals, Stderr)
    && Replayed(c.stdout) && Replayed(c.stderr)
    && c.stdout.completed == c.disposed && c.stderr.completed == c.disposed
    && c.logOpen == !c.disposed
  }

  /** The constructor: empty feeds, no viewers, the log file created at `GetLogPath` and open. */
  function Create(localAppData: string, friendlyName: string, now: LogPath.Timestamp): (c: Capture)
    requires LogPath.ValidTimestamp(now)
    ensures Valid(c)
    ensures c.logOpen && !c.disposed && c.arrivals == []
    ensures c.logPath == LogPath.GetLogPath(localAppData, friendlyName, now)
  {
    var empty := Feed([], false, map[]);
    Capture(empty, empty, [], LogPath.GetLogPath(localAppData, friendlyName, now), true, false)
  }

  /** A new chunk on a feed that has not completed: every viewer is told it. */
  function Push(f: Feed, chunk: string): (r: Feed)
    requires !f.completed && Replayed(f)
    ensures r.history == f.history + [chunk] && !r.completed
    ensures r.viewers.Keys == f.viewers.Keys
    ensures forall v :: v in f.viewers ==> r.viewers[v] == f.viewers[v] + [Text(chunk)]
    ensures Replayed(r)
  {
    var r := Feed(f.history + [chunk], false, map v | v in f.viewers :: f.viewers[v] + [Text(chunk)]);
    assert Texts(r.history) == Texts(f.history) + [Text(chunk)];
    r
  }

  /** Completion of a feed: every viewer is told it. */
  function Complete(f: Feed): (r: Feed)
    requires !f.completed && Replayed(f)
    ensures r.history == f.history && r.completed
    ensures r.viewers.Keys == f.viewers.Keys
    ensures forall v :: v in f.viewers ==> r.viewers[v] == f.viewers[v] + [Completed]
    ensures Replayed(r)
  {
    Feed(f.history, true, map v | v in f.viewers :: f.viewers[v] + [Completed])
  }

  /**
   A `DataReceived` event on one stream. Before disposal its chunk goes to
   that stream's viewers and to the log; after disposal `TakeUntil` has
   stopped the feed and the event is dropped. End of stream only adds the
   bare line break: it neither completes the feed nor closes the log.
   */
  function Receive(c: Capture, stream: Stream, data: Option<string>): (r: Capture)
    requires Valid(c)
    ensures Valid(r)
    ensures c.disposed ==> r == c
    ensures !c.disposed ==> r.arrivals == c.arrivals + [(stream, Chunk(data))]
    ensures !c.disposed ==> forall v :: v in FeedOf(c, stream).viewers ==>
              v in FeedOf(r, stream).viewers
              && FeedOf(r, stream).viewers[v] == FeedOf(c, stream).viewers[v] + [Text(Chunk(data))]
    ensures FeedOf(r, stream).viewers.Keys == FeedOf(c, stream).viewers.Keys
    ensures FeedOf(r, Other(stream)) == FeedOf(c, Other(stream))
    ensures r.logOpen == c.logOpen && r.disposed == c.disposed && r.logPath == c.logPath
  {
    if c.disposed then c
    else
      var chunk := Chunk(data);
      OfAppend(c.arrivals, stream, chunk);
      Deliver(c, stream, chunk)
  }

  /** The chunk appended to one feed and to the merged arrivals. */
  function Deliver(c: Capture, stream: Stream, chunk: string): (r: Capture)
    requires Valid(c) && !c.disposed
    requires Of(c.arrivals + [(stream, chunk)], stream) == Of(c.arrivals, stream) + [chunk]
    requires Of(c.arrivals + [(stream, chunk)], Other(stream)) == Of(c.arrivals, Other(stream))
    ensures Valid(r)
    ensures r.arrivals == c.arrivals + [(stream, chunk)]
    ensures FeedOf(r, stream) == Push(FeedOf(c, stream), chunk)
    ensures FeedOf(r, Other(stream)) == FeedOf(c, Other(stream))
    ensures r.logOpen == c.logOpen && r.disposed == c.disposed && r.logPath == c.logPath
  {
    var arrivals := c.arrivals + [(stream, chunk)];
    if stream == Stdout then c.(stdout := Push(c.stdout, chunk), arrivals := arrivals)
    else c.(stderr := Push(c.stderr, chunk), arrivals := arrivals)
  }

  /** A new arrival extends its own stream's share and leaves the other's alone. */
  lemma OfAppend(arrivals: seq<(Stream, string)>, stream: Stream, chunk: string)
    ensures Of(arrivals + [(stream, chunk)], stream) == Of(arrivals, stream) + [chunk]
    ensures Of(arrivals + [(stream, chunk)], Other(stream)) == Of(arrivals, Other(stream))
  {
    var a := arrivals + [(stream, chunk)];
    assert a[..|a| - 1] == arrivals;
  }

  /**
   A viewer subscribes to a feed (`GetOutput`, `GetErrorOutput`): it is
   replayed the transcript so far. Viewer numbers are meant to be fresh; a
   number already attached is replaced, not subscribed a second time.
   */
  function Attach(c: Capture, stream: Stream, viewer: nat): (r: Capture)
    requires Valid(c)
    ensures Valid(r)
    ensures FeedOf(r, stream).viewers == FeedOf(c, stream).viewers[viewer := Transcript(FeedOf(c, stream))]
    ensures FeedOf(r, stream).history == FeedOf(c, stream).history
    ensures FeedOf(r, stream).completed == FeedOf(c, stream).completed
    ensures FeedOf(r, Other(stream)) == FeedOf(c, Other(stream))
    ensures r.arrivals == c.arrivals && r.logOpen == c.logOpen && r.disposed == c.disposed && r.logPath == c.logPath
  {
    if stream == Stdout then c.(stdout := c.stdout.(viewers := c.stdout.viewers[viewer := Transcript(c.stdout)]))
    else c.(stderr := c.stderr.(viewers := c.stderr.viewers[viewer := Transcript(c.stderr)]))
  }

  /**
   `Dispose`: the first call fires the dispose signal, so both feeds
   complete, and with both complete the merged stream completes and the log
   file is closed. A later call finds everything disposed already.
   */
  function Dispose(c: Capture): (r: Capture)
    requires Valid(c)
    ensures Valid(r)
    ensures r.disposed && !r.logOpen
    ensures r.arrivals == c.arrivals && r.logPath == c.logPath
    ensures r.stdout.history == c.stdout.history && r.stderr.history == c.stderr.history
    ensures r.stdout.viewers.Keys == c.stdout.viewers.Keys && r.stderr.viewers.Keys == c.stderr.viewers.Keys
    ensures c.disposed ==> r == c
    ensures !c.disposed ==> forall v :: v in c.stdout.viewers ==> r.stdout.viewers[v] == c.stdout.viewers[v] + [Completed]
    ensures !c.disposed ==> forall v :: v in c.stderr.viewers ==> r.stderr.viewers[v] == c.stderr.viewers[v] + [Completed]
  {
    if c.disposed then c
    else c.(stdout := Complete(c.stdout), stderr := Complete(c.stderr), logOpen := false, disposed := true)
  }

  /** Disposing twice is disposing once. */
  lemma DisposeIdempotent(c: Capture)
    requires Valid(c)
    ensures Dispose(Dispose(c)) == Dispose(c)
  {
  }

  /** One step of the capture. */
  datatype Action = Received(stream: Stream, data: Option<string>) | Attached(stream: Stream, viewer: nat) | Disposed

  function Apply(c: Capture, a: Action): (r: Capture)
    requires Valid(c)
    ensures Valid(r)
    ensures c.stdout.viewers.Keys <= r.stdout.viewers.Keys && c.stderr.viewers.Keys <= r.stderr.viewers.Keys
    ensures a.Attached? ==> a.viewer in FeedOf(r, a.stream).viewers
    ensures r.logPath == c.logPath
  {
    match a
    case Received(stream, data) => Receive(c, stream, data)
    case Attached(stream, viewer) => Attach(c, stream, viewer)
    case Disposed => Dispose(c)
  }

  function Run(c: Capture, actions: seq<Action>): (r: Capture)
    requires Valid(c)
    ensures Valid(r)
    ensures c.stdout.viewers.Keys <= r.stdout.viewers.Keys && c.stderr.viewers.Keys <= r.stderr.viewers.Keys
    ensures r.logPath == c.logPath
    decreases |actions|
  {
    if |actions| == 0 then c else Run(Apply(c, actions[0]), actions[1..])
  }

  /** The chunks of the events received before the first disposal, in order. */
  function Accepted(actions: seq<Action>): seq<(Stream, string)>
  {
    if |actions| == 0 then []
    else match actions[0]
      case Disposed => []
      case Attached(_, _) => Accepted(actions[1..])
      case Received(stream, data) => [(stream, Chunk(data))] + Accepted(actions[1..])
  }

  /** What one action before disposal adds to the merged arrivals. */
  function Arrived(a: Action): seq<(Stream, string)> {
    if a.Received? then [(a.stream, Chunk(a.data))] else []
  }

  lemma ApplyArrivals(c: Capture, a: Action)
    requires Valid(c) && !c.disposed && !a.Disposed?
    ensures Apply(c, a).arrivals == c.arrivals + Arrived(a) && !Apply(c, a).disposed
  {
  }

  lemma AcceptedCons(actions: seq<Action>)
    requires |actions| > 0 && !actions[0].Disposed?
    ensures Accepted(actions) == Arrived(actions[0]) + Accepted(actions[1..])
  {
  }

  /** Before disposal, exactly the received chunks are added to the merged arrivals. */
  lemma {:induction false} RunArrivals(c: Capture, actions: seq<Action>)
    requires Valid(c) && !c.disposed
    ensures Run(c, actions).arrivals == c.arrivals + Accepted(actions)
    decreases |actions|
  {
    if |actions| > 0 {
      var c1 := Apply(c, actions[0]);
      assert Run(c, actions) == Run(c1, actions[1..]);
      if actions[0].Disposed? {
        AfterDispose(c1, actions[1..]);
        assert c.arrivals + [] == c.arrivals;
      } else {
        ApplyArrivals(c, actions[0]);
        RunArrivals(c1, actions[1..]);
        AcceptedCons(actions);
        AssocArrivals(c.arrivals, Arrived(actions[0]), Accepted(actions[1..]));
      }
    } else {
      assert c.arrivals + [] == c.arrivals;
    }
  }

  lemma AssocArrivals(a: seq<(Stream, string)>, b: seq<(Stream, string)>, d: seq<(Stream, string)>)
    ensures a + b + d == a + (b + d)
  {
  }

  /**
   From a freshly created capture, whatever the order of events, viewers and
   disposal: the log holds exactly the chunks received before the first
   disposal, in arrival order; each feed's history is its stream's share of
   them; every viewer, whenever it attached, has been told that whole
   history (and completion once disposed); and the log is closed exactly
   when the capture has been disposed.
   */
  lemma CaptureRun(localAppData: string, friendlyName: string, now: LogPath.Timestamp, actions: seq<Action>)
    requires LogPath.ValidTimestamp(now)
    ensures var r := Run(Create(localAppData, friendlyName, now), actions);
            LogText(r.arrivals) == LogText(Accepted(actions))
            && r.stdout.history == Of(Accepted(actions), Stdout) && r.stderr.history == Of(Accepted(actions), Stderr)
            && (forall v :: v in r.stdout.viewers ==> r.stdout.viewers[v] == Transcript(r.stdout))
            && (forall v :: v in r.stderr.viewers ==> r.stderr.viewers[v] == Transcript(r.stderr))
            && (r.logOpen <==> !r.disposed)
            && r.logPath == LogPath.GetLogPath(localAppData, friendlyName, now)
            && (forall s, v :: Attached(s, v) in actions ==> v in FeedOf(r, s).viewers)
  {
    var c := Create(localAppData, friendlyName, now);
    RunArrivals(c, actions);
    RunKeepsAttached(c, actions);
    assert [] + Accepted(actions) == Accepted(actions);
  }

  /** Once disposed, nothing more reaches the feeds or the log. */
  lemma {:induction false} AfterDispose(c: Capture, actions: seq<Action>)
    requires Valid(c) && c.disposed
    ensures Run(c, actions).arrivals == c.arrivals
    ensures Run(c, actions).stdout.history == c.stdout.history
    ensures Run(c, actions).stderr.history == c.stderr.history
    ensures Run(c, actions).disposed && !Run(c, actions).logOpen
    ensures Run(c, actions).logPath == c.logPath
    decreases |actions|
  {
    if |actions| > 0 {
      AfterDispose(Apply(c, actions[0]), actions[1..]);
    }
  }

  /** A feed that only grows at the end, and completes last, only extends its transcript. */
  lemma TranscriptPrefix(f: Feed, g: Feed)
    requires |f.history| <= |g.history| && g.history[..|f.history|] == f.history
    requires f.completed ==> g.completed && g.history == f.history
    ensures |Transcript(f)| <= |Transcript(g)| && Transcript(g)[..|Transcript(f)|] == Transcript(f)
  {
    var t, u := Transcript(f), Transcript(g);
    forall i | 0 <= i < |t|
      ensures u[i] == t[i]
    {
      if i < |f.history| {
        assert g.history[i] == g.history[..|f.history|][i];
      }
    }
  }

  /**
   A viewer that attaches to a feed late is told the same notes as one that
   was attached from the start: no step loses or reorders a note of the
   transcript, it only grows at the end.
   */
  lemma TranscriptGrows(c: Capture, a: Action, stream: Stream)
    requires Valid(c)
    ensures var t := Transcript(FeedOf(c, stream));
            var u := Transcript(FeedOf(Apply(c, a), stream));
            |t| <= |u| && u[..|t|] == t
  {
    var f := FeedOf(c, stream);
    var g := FeedOf(Apply(c, a), stream);
    if g.history != f.history {
      assert g.history[..|f.history|] == f.history;
    }
    TranscriptPrefix(f, g);
  }

  /** A viewer that attached during a run is still attached at its end. */
  lemma {:induction false} RunKeepsAttached(c: Capture, actions: seq<Action>)
    requires Valid(c)
    ensures forall s, v :: Attached(s, v) in actions ==> v in FeedOf(Run(c, actions), s).viewers
    decreases |actions|
  {
    if |actions| > 0 {
      var c1 := Apply(c, actions[0]);
      var r := Run(c1, actions[1..]);
      assert Run(c, actions) == r;
      RunKeepsAttached(c1, actions[1..]);
      forall s, v | Attached(s, v) in actions
        ensures v in FeedOf(r, s).viewers
      {
        if actions[0] == Attached(s, v) {
          assert v in FeedOf(c1, s).viewers;
        } else {
          assert Attached(s, v) in actions[1..];
        }
      }
    }
  }

  /**
   An attached viewer is never dropped, and no step takes back or reorders
   what it has been told: it is only told more, at the end.
   */
  lemma ViewerOnlyGrows(c: Capture, a: Action, stream: Stream, v: nat)
    requires Valid(c) && v in FeedOf(c, stream).viewers
    ensures var before := FeedOf(c, stream).viewers[v];
            v in FeedOf(Apply(c, a), stream).viewers
            && |before| <= |FeedOf(Apply(c, a), stream).viewers[v]|
            && FeedOf(Apply(c, a), stream).viewers[v][..|before|] == before
  {
    TranscriptGrows(c, a, stream);
  }
}

=== FILE: process_list.dfy ===
/**
 The launcher's list of running child processes (`ProcessList`): each entry
 pairs a process with the capture of its output. Operations launch a process,
 prune the ones that have exited, close one or all of them, and list them.

 The list is an immutable sequence. What the operating system would answer
 (has the process exited, did it accept the close message, did it exit within
 the wait) is an `Os` value given to each operation, and what the operation
 does to the outside world (messages, waits, kills, disposals, handle
 releases) is returned as a sequence of `Effect`s in the order it happens.
 */
module ProcessList {
  import opened ArgvQuote
  import CommandLine

  /** A launched process: its id, its name as the system reports it, and its argument string. */
  datatype Process = Process(pid: nat, name: string, arguments: string)

  /** One list entry: a process and the identity of its output capture. */
  datatype Entry = Entry(process: Process, output: nat)

  /**
   The operating system's answers, per process id: which processes have exited,
   which accept the close-main-window message, and which of those exit within
   the wait that follows.
   */
  datatype Os = Os(exited: set<nat>, acceptsClose: set<nat>, exitsInTime: set<nat>)

  /** The observable actions of the list, in the order they are taken. */
  datatype Effect =
    | CloseMainWindow(pid: nat)
    | WaitForExit(pid: nat, millis: nat)
    | Kill(pid: nat)
    | DisposeOutput(output: nat)
    | CloseHandle(pid: nat)

  /** The list after an operation and what the operation did. */
  datatype Step = Step(entries: seq<Entry>, effects: seq<Effect>)

  /**
   The result of starting a process: it runs with its capture; the system
   refuses it (the two exceptions `RunProcess` catches); or it runs but
   building its capture throws, for example because the log file of the same
   name is still held open by a launch within the same second.
   */
  datatype Launch =
    | Started(pid: nat, name: string, output: nat)
    | Win32Failure
    | FileNotFound
    | CaptureFailed(pid: nat)

  /**
   `LaunchFailed` is the wrapped exception `RunProcess` throws; `Escaped` is
   an exception from building the capture, which leaves `RunProcess`
   unwrapped while the process `pid` keeps running, listed nowhere.
   */
  datatype Error = LaunchFailed(message: string) | Escaped(pid: nat) | IndexOutOfRange(index: int)

  datatype Result<T> = Ok(value: T) | Fail(error: Error)

  /** How long a process that accepted the close message is given to exit. */
  const CloseWaitMillis: nat := 2000

  const LaunchFailurePrefix: string := "Failed to launch process '"

  /** The index positions of `a` appear in `b` in the same order. */
  predicate IsSubsequence<T(==)>(a: seq<T>, b: seq<T>)
    decreases |b|
  {
    |a| == 0 || (|b| > 0 && (if a[0] == b[0] then IsSubsequence(a[1..], b[1..]) else IsSubsequence(a, b[1..])))
  }

  /** No two entries share a process id. */
  predicate DistinctPids(entries: seq<Entry>) {
    forall i, j :: 0 <= i < j < |entries| ==> entries[i].process.pid != entries[j].process.pid
  }

  /** No two entries share an output capture. */
  predicate DistinctOutputs(entries: seq<Entry>) {
    forall i, j :: 0 <= i < j < |entries| ==> entries[i].output != entries[j].output
  }

  /** `eff` is the disposal or handle release of an entry of `entries` whose process exited. */
  predicate RetiresExited(eff: Effect, entries: seq<Entry>, exited: set<nat>) {
    exists i :: 0 <= i < |entries| && entries[i].process.pid in exited &&
      (eff == DisposeOutput(entries[i].output) || eff == CloseHandle(entries[i].process.pid))
  }

  /** The two actions that retire an entry: dispose its output, release its handle. */
  function Retire(e: Entry): seq<Effect> {
    [DisposeOutput(e.output), CloseHandle(e.process.pid)]
  }

  /**
   Launches `path` with `args`: the arguments are encoded and joined into one
   argument string. If the system refuses, the list is unchanged and the error
   names the path. If the capture cannot be built, the list is unchanged and
   the error is not wrapped. Otherwise exactly one entry is appended.
   */
  function RunProcess(entries: seq<Entry>, path: string, args: seq<string>, launch: Launch)
    : (r: Result<seq<Entry>>)
    ensures r.Ok? <==> launch.Started?
    ensures r.Fail? ==> (r.error.LaunchFailed? <==> !launch.CaptureFailed?)
    ensures launch.CaptureFailed? ==> r.Fail? && r.error == Escaped(launch.pid)
    ensures r.Fail? && r.error.LaunchFailed? ==> |r.error.message| > |LaunchFailurePrefix| + |path|
    ensures r.Fail? && r.error.LaunchFailed? ==>
              r.error.message[|LaunchFailurePrefix|..|LaunchFailurePrefix| + |path|] == path
    ensures r.Ok? ==> |r.value| == |entries| + 1 && r.value[..|entries|] == entries
    ensures r.Ok? ==> r.value[|entries|].output == launch.output
    ensures r.Ok? ==> r.value[|entries|].process.pid == launch.pid
    ensures r.Ok? ==> CommandLine.ParseArgs(r.value[|entries|].process.arguments) == args
  {
    match launch
    case Started(pid, name, output) =>
      CommandLine.JoinArgsRoundTrip(args);
      Ok(entries + [Entry(Process(pid, name, JoinArgs(args)), output)])
    case CaptureFailed(pid) =>
      Fail(Escaped(pid))
    case _ =>
      Fail(LaunchFailed(LaunchFailurePrefix + path + "'"))
  }

  /**
   The close protocol for one process: ask its main window to close; if that
   message was delivered, wait for the process to exit; kill it unless it
   exited in time; then dispose its output and release its handle.
   */
  function Terminate(e: Entry, os: Os): (effects: seq<Effect>)
    ensures |effects| >= 3 && effects[0] == CloseMainWindow(e.process.pid)
    ensures WaitForExit(e.process.pid, CloseWaitMillis) in effects <==> e.process.pid in os.acceptsClose
    ensures Kill(e.process.pid) in effects
            <==> !(e.process.pid in os.acceptsClose && e.process.pid in os.exitsInTime)
    ensures e.process.pid in os.acceptsClose ==> effects[1] == WaitForExit(e.process.pid, CloseWaitMillis)
    ensures Kill(e.process.pid) in effects ==> effects[|effects| - 3] == Kill(e.process.pid)
    ensures |effects| == 3 + (if e.process.pid in os.acceptsClose then 1 else 0)
                           + (if Kill(e.process.pid) in effects then 1 else 0)
    ensures effects[|effects| - 2..] == Retire(e)
    ensures forall k :: 0 <= k < |effects| ==> !effects[k].DisposeOutput? || k == |effects| - 2
    ensures forall k :: 0 <= k < |effects| ==> effects[k].DisposeOutput? || effects[k].pid == e.process.pid
    ensures forall k :: 0 < k < |effects| ==> !effects[k].CloseMainWindow?
  {
    var pid := e.process.pid;
    var escalation :=
      if pid in os.acceptsClose then
        [WaitForExit(pid, CloseWaitMillis)] + (if pid in os.exitsInTime then [] else [Kill(pid)])
      else [Kill(pid)];
    [CloseMainWindow(pid)] + escalation + Retire(e)
  }

  /**
   Removes every entry whose process has exited, disposing its output and
   releasing its handle, and keeps the others in their order.
   */
  function RemoveExited(entries: seq<Entry>, exited: set<nat>): (r: Step)
    ensures |r.entries| <= |entries|
    ensures |r.effects| == 2 * (|entries| - |r.entries|)
  {
    if |entries| == 0 then Step([], [])
    else
      var e := entries[0];
      var rest := RemoveExited(entries[1..], exited);
      if e.process.pid in exited then
        Step(rest.entries, Retire(e) + rest.effects)
      else
        Step([e] + rest.entries, rest.effects)
  }

  /**
   An entry survives pruning if and only if its process has not exited, and
   the survivors keep their order.
   */
  lemma {:induction false} RemoveExitedKeeps(entries: seq<Entry>, exited: set<nat>)
    ensures forall e :: e in RemoveExited(entries, exited).entries <==> e in entries && e.process.pid !in exited
    ensures IsSubsequence(RemoveExited(entries, exited).entries, entries)
  {
    if |entries| > 0 {
      var e := entries[0];
      var tail := entries[1..];
      RemoveExitedKeeps(tail, exited);
      assert entries == [e] + tail;
      var kept := RemoveExited(tail, exited).entries;
      if e.process.pid !in exited {
        assert ([e] + kept)[0] == e && ([e] + kept)[1..] == kept;
      } else {
        SubsequenceSkip(kept, e, tail);
      }
    }
  }

  /** A subsequence of `b` is a subsequence of `b` with one more element in front. */
  lemma {:induction false} SubsequenceSkip(a: seq<Entry>, e: Entry, b: seq<Entry>)
    requires IsSubsequence(a, b)
    ensures IsSubsequence(a, [e] + b)
    decreases |b|, 1
  {
    assert ([e] + b)[1..] == b;
    if |a| > 0 && a[0] == e {
      SubsequenceTail(a, b);
    }
  }

  /** Dropping the first element of a subsequence keeps it a subsequence. */
  lemma {:induction false} SubsequenceTail(a: seq<Entry>, b: seq<Entry>)
    requires |a| > 0 && IsSubsequence(a, b)
    ensures IsSubsequence(a[1..], b)
    decreases |b|, 0
  {
    if a[0] == b[0] {
      if |a[1..]| > 0 {
        SubsequenceTail(a[1..], b[1..]);
        SubsequenceSkip(a[1..][1..], b[0], b[1..]);
        assert [b[0]] + b[1..] == b;
      }
    } else {
      SubsequenceTail(a, b[1..]);
      SubsequenceSkip(a[1..], b[0], b[1..]);
      assert [b[0]] + b[1..] == b;
    }
  }

  /** `RemoveExited` on a list with a first entry `e`. */
  lemma RemoveExitedCons(e: Entry, tail: seq<Entry>, exited: set<nat>)
    ensures var rest := RemoveExited(tail, exited);
            RemoveExited([e] + tail, exited)
            == if e.process.pid in exited then Step(rest.entries, Retire(e) + rest.effects)
               else Step([e] + rest.entries, rest.effects)
  {
    assert ([e] + tail)[0] == e;
    assert ([e] + tail)[1..] == tail;
  }

  /**
   Pruning's effects: each exited entry's output is disposed and its handle
   released, and every effect belongs to an exited entry.
   */
  lemma {:induction false} RemoveExitedEffects(entries: seq<Entry>, exited: set<nat>)
    ensures forall i :: 0 <= i < |entries| && entries[i].process.pid in exited ==>
              DisposeOutput(entries[i].output) in RemoveExited(entries, exited).effects
              && CloseHandle(entries[i].process.pid) in RemoveExited(entries, exited).effects
    ensures forall k :: 0 <= k < |RemoveExited(entries, exited).effects| ==>
              RetiresExited(RemoveExited(entries, exited).effects[k], entries, exited)
  {
    RemoveExitedRetires(entries, exited);
    RemoveExitedOnlyRetires(entries, exited);
  }

  lemma {:induction false} RemoveExitedRetires(entries: seq<Entry>, exited: set<nat>)
    ensures forall i :: 0 <= i < |entries| && entries[i].process.pid in exited ==>
              DisposeOutput(entries[i].output) in RemoveExited(entries, exited).effects
              && CloseHandle(entries[i].process.pid) in RemoveExited(entries, exited).effects
  {
    if |entries| > 0 {
      var e, tail := entries[0], entries[1..];
      RemoveExitedRetires(tail, exited);
      var rest := RemoveExited(tail, exited).effects;
      var all := RemoveExited(entries, exited).effects;
      assert forall x :: x in rest ==> x in all;
      forall i | 0 <= i < |entries| && entries[i].process.pid in exited
        ensures DisposeOutput(entries[i].output) in all && CloseHandle(entries[i].process.pid) in all
      {
        if i > 0 {
          assert entries[i] == tail[i - 1];
        }
      }
    }
  }

  lemma RetiresExtend(x: Effect, e: Entry, tail: seq<Entry>, exited: set<nat>)
    requires RetiresExited(x, tail, exited)
    ensures RetiresExited(x, [e] + tail, exited)
  {
    var j :| 0 <= j < |tail| && tail[j].process.pid in exited &&
      (x == DisposeOutput(tail[j].output) || x == CloseHandle(tail[j].process.pid));
    assert ([e] + tail)[j + 1] == tail[j];
  }

  lemma {:induction false} RemoveExitedOnlyRetires(entries: seq<Entry>, exited: set<nat>)
    ensures forall k :: 0 <= k < |RemoveExited(entries, exited).effects| ==>
              RetiresExited(RemoveExited(entries, exited).effects[k], entries, exited)
  {
    if |entries| > 0 {
      var e, tail := entries[0], entries[1..];
      assert entries == [e] + tail;
      RemoveExitedOnlyRetires(tail, exited);
      var rest := RemoveExited(tail, exited).effects;
      var all := RemoveExited(entries, exited).effects;
      forall k | 0 <= k < |all|
        ensures RetiresExited(all[k], entries, exited)
      {
        var off := if e.process.pid in exited then 2 else 0;
        if k < off {
          assert all[k] == Retire(e)[k];
          assert entries[0] == e;
        } else {
          assert all[k] == rest[k - off];
          RetiresExtend(all[k], e, tail, exited);
        }
      }
    }
  }

  /**
   Closes the entry at `index` with the close protocol and removes it; no
   pruning happens first. An index outside the list fails before any effect.
   */
  function Close(entries: seq<Entry>, index: int, os: Os): (r: Result<Step>)
    ensures r.Ok? <==> 0 <= index < |entries|
    ensures r.Fail? ==> r.error == IndexOutOfRange(index)
    ensures r.Ok? ==> |r.value.entries| == |entries| - 1
    ensures r.Ok? ==> forall j :: 0 <= j < index ==> r.value.entries[j] == entries[j]
    ensures r.Ok? ==> forall j :: index <= j < |r.value.entries| ==> r.value.entries[j] == entries[j + 1]
    ensures r.Ok? ==> r.value.effects == Terminate(entries[index], os)
  {
    if 0 <= index < |entries| then
      Ok(Step(entries[..index] + entries[index + 1..], Terminate(entries[index], os)))
    else
      Fail(IndexOutOfRange(index))
  }

  /** The close protocol applied to each entry in list order. */
  function TerminateAll(entries: seq<Entry>, os: Os): (effects: seq<Effect>)
    ensures forall e :: e in entries ==>
              CloseMainWindow(e.process.pid) in effects && DisposeOutput(e.output) in effects
  {
    if |entries| == 0 then []
    else
      assert entries == [entries[0]] + entries[1..];
      Terminate(entries[0], os) + TerminateAll(entries[1..], os)
  }

  /**
   Prunes the exited entries, applies the close protocol to every remaining
   one, and leaves the list empty.
   */
  function CloseAll(entries: seq<Entry>, os: Os): (r: Step)
    ensures r.entries == []
    ensures forall i :: 0 <= i < |entries| ==> DisposeOutput(entries[i].output) in r.effects
    ensures forall i :: 0 <= i < |entries| && entries[i].process.pid !in os.exited ==>
              CloseMainWindow(entries[i].process.pid) in r.effects
  {
    var pruned := RemoveExited(entries, os.exited);
    RemoveExitedEffects(entries, os.exited);
    RemoveExitedKeeps(entries, os.exited);
    Step([], pruned.effects + TerminateAll(pruned.entries, os))
  }

  /** The name shown for a process: its name, a space, and its argument string. */
  function FriendlyName(p: Process): string {
    p.name + " " + p.arguments
  }

  /** The names of the processes still running, after pruning. */
  datatype Listing = Listing(pruned: Step, names: seq<string>)

  function GetNames(entries: seq<Entry>, exited: set<nat>): (r: Listing)
    ensures r.pruned == RemoveExited(entries, exited)
    ensures |r.names| == |r.pruned.entries|
    ensures forall i :: 0 <= i < |r.names| ==> r.names[i] == FriendlyName(r.pruned.entries[i].process)
  {
    var pruned := RemoveExited(entries, exited);
    Listing(pruned, seq(|pruned.entries|, i requires 0 <= i < |pruned.entries| => FriendlyName(pruned.entries[i].process)))
  }

  /** Whether any process is still running, after pruning. */
  datatype Answer = Answer(pruned: Step, any: bool)

  function HasProcesses(entries: seq<Entry>, exited: set<nat>): (r: Answer)
    ensures r.pruned == RemoveExited(entries, exited)
    ensures r.any <==> exists i :: 0 <= i < |entries| && entries[i].process.pid !in exited
  {
    var pruned := RemoveExited(entries, exited);
    RemoveExitedKeeps(entries, exited);
    assert (exists i :: 0 <= i < |entries| && entries[i].process.pid !in exited) <==> |pruned.entries| > 0 by {
      if i :| 0 <= i < |entries| && entries[i].process.pid !in exited {
        assert entries[i] in pruned.entries;
      }
      if |pruned.entries| > 0 {
        assert pruned.entries[0] in entries;
      }
    }
    Answer(pruned, |pruned.entries| > 0)
  }

  /** The output capture of the entry at `index`; no pruning happens first. */
  function GetProcessOutput(entries: seq<Entry>, index: int): (r: Result<nat>)
    ensures r.Ok? <==> 0 <= index < |entries|
    ensures r.Ok? ==> r.value == entries[index].output
  {
    if 0 <= index < |entries| then Ok(entries[index].output) else Fail(IndexOutOfRange(index))
  }

  /** Pruning twice is pruning once: the second pass finds nothing to remove. */
  lemma {:induction false} RemoveExitedIdempotent(entries: seq<Entry>, exited: set<nat>)
    ensures RemoveExited(RemoveExited(entries, exited).entries, exited) == Step(RemoveExited(entries, exited).entries, [])
  {
    if |entries| > 0 {
      RemoveExitedIdempotent(entries[1..], exited);
      var rest := RemoveExited(entries[1..], exited).entries;
      if entries[0].process.pid !in exited {
        assert ([entries[0]] + rest)[1..] == rest;
      }
    }
  }

  /** Under distinct outputs, pruning disposes each exited entry's output exactly once and no other. */
  lemma {:induction false} RemoveExitedDisposesOnce(entries: seq<Entry>, exited: set<nat>)
    requires DistinctOutputs(entries)
    ensures forall i :: 0 <= i < |entries| ==>
              multiset(RemoveExited(entries, exited).effects)[DisposeOutput(entries[i].output)]
              == (if entries[i].process.pid in exited then 1 else 0)
  {
    if |entries| > 0 {
      var e := entries[0];
      var tail := entries[1..];
      var rest := RemoveExited(tail, exited);
      RemoveExitedDisposesOnce(tail, exited);
      RemoveExitedEffects(tail, exited);
      forall k | 0 <= k < |rest.effects|
        ensures rest.effects[k] != DisposeOutput(e.output)
      {
        assert RetiresExited(rest.effects[k], tail, exited);
        var j :| 0 <= j < |tail| && tail[j].process.pid in exited &&
          (rest.effects[k] == DisposeOutput(tail[j].output) || rest.effects[k] == CloseHandle(tail[j].process.pid));
        assert tail[j] == entries[j + 1];
      }
      assert DisposeOutput(e.output) !in rest.effects;
      forall i | 0 <= i < |entries|
        ensures multiset(RemoveExited(entries, exited).effects)[DisposeOutput(entries[i].output)]
                == (if entries[i].process.pid in exited then 1 else 0)
      {
        if i > 0 {
          assert entries[i] == tail[i - 1];
          assert entries[i].output != e.output;
        }
      }
    }
  }

  /** The output captures of `entries`. */
  function Outputs(entries: seq<Entry>): set<nat> {
    set e | e in entries :: e.output
  }

  /** Pruning keeps outputs distinct. */
  lemma {:induction false} RemoveExitedKeepsDistinct(entries: seq<Entry>, exited: set<nat>)
    requires DistinctOutputs(entries)
    ensures DistinctOutputs(RemoveExited(entries, exited).entries)
  {
    if |entries| > 0 {
      var e := entries[0];
      var tail := entries[1..];
      RemoveExitedKeepsDistinct(tail, exited);
      RemoveExitedKeeps(tail, exited);
      var kept := RemoveExited(tail, exited).entries;
      if e.process.pid !in exited {
        forall x | x in kept
          ensures x.output != e.output
        {
          var j :| 0 <= j < |tail| && tail[j] == x;
          assert tail[j] == entries[j + 1];
        }
        var r := [e] + kept;
        forall i, j | 0 <= i < j < |r|
          ensures r[i].output != r[j].output
        {
          if i > 0 {
            assert r[i] == kept[i - 1] && r[j] == kept[j - 1];
          } else {
            assert r[j] in kept;
          }
        }
      }
    }
  }

  /** The close protocol disposes the entry's output once and nothing else. */
  lemma TerminateDisposes(e: Entry, os: Os, o: nat)
    ensures multiset(Terminate(e, os))[DisposeOutput(o)] == if o == e.output then 1 else 0
  {
  }

  /** Closing a list of entries with distinct outputs disposes each output exactly once. */
  lemma {:induction false} TerminateAllDisposesOnce(entries: seq<Entry>, os: Os, o: nat)
    requires DistinctOutputs(entries)
    ensures multiset(TerminateAll(entries, os))[DisposeOutput(o)] == if o in Outputs(entries) then 1 else 0
  {
    if |entries| > 0 {
      TerminateDisposes(entries[0], os, o);
      TerminateAllDisposesOnce(entries[1..], os, o);
      TerminateAllCons(entries, os);
      OutputsCons(entries);
      HeadOutputUnique(entries);
    }
  }

  lemma TerminateAllCons(entries: seq<Entry>, os: Os)
    requires |entries| > 0
    ensures multiset(TerminateAll(entries, os))
            == multiset(Terminate(entries[0], os)) + multiset(TerminateAll(entries[1..], os))
  {
  }

  lemma HeadOutputUnique(entries: seq<Entry>)
    requires |entries| > 0 && DistinctOutputs(entries)
    ensures entries[0].output !in Outputs(entries[1..])
  {
    forall x | x in entries[1..]
      ensures x.output != entries[0].output
    {
      var j :| 0 <= j < |entries[1..]| && entries[1..][j] == x;
      assert entries[1..][j] == entries[j + 1];
    }
  }

  lemma OutputsCons(entries: seq<Entry>)
    requires |entries| > 0
    ensures Outputs(entries) == {entries[0].output} + Outputs(entries[1..])
  {
    assert entries == [entries[0]] + entries[1..];
  }

  /**
   Closing everything disposes the output of every entry exactly once, whether
   it was pruned as exited or closed by the protocol (outputs being distinct).
   */
  lemma CloseAllDisposesOnce(entries: seq<Entry>, os: Os)
    requires DistinctOutputs(entries)
    ensures forall i :: 0 <= i < |entries| ==>
              multiset(CloseAll(entries, os).effects)[DisposeOutput(entries[i].output)] == 1
  {
    var pruned := RemoveExited(entries, os.exited);
    RemoveExitedKeeps(entries, os.exited);
    RemoveExitedDisposesOnce(entries, os.exited);
    RemoveExitedKeepsDistinct(entries, os.exited);
    forall i | 0 <= i < |entries|
      ensures multiset(CloseAll(entries, os).effects)[DisposeOutput(entries[i].output)] == 1
    {
      var o := entries[i].output;
      TerminateAllDisposesOnce(pruned.entries, os, o);
      if entries[i].process.pid in os.exited {
        forall x | x in pruned.entries
          ensures x.output != o
        {
          var j :| 0 <= j < |entries| && entries[j] == x;
          assert j != i;
        }
      } else {
        assert entries[i] in pruned.entries;
      }
    }
  }

  /** An entry that has not exited, appended at the end, stays at the end after pruning. */
  lemma {:induction false} RemoveExitedAppend(entries: seq<Entry>, e: Entry, exited: set<nat>)
    requires e.process.pid !in exited
    ensures RemoveExited(entries + [e], exited)
            == Step(RemoveExited(entries, exited).entries + [e], RemoveExited(entries, exited).effects)
  {
    if |entries| == 0 {
      assert entries + [e] == [e] + [];
      RemoveExitedCons(e, [], exited);
      assert [e] + [] == [] + [e];
    } else {
      var head, tail := entries[0], entries[1..];
      assert entries == [head] + tail;
      assert entries + [e] == [head] + (tail + [e]);
      RemoveExitedAppend(tail, e, exited);
      RemoveExitedCons(head, tail + [e], exited);
      RemoveExitedCons(head, tail, exited);
      var kept := RemoveExited(tail, exited).entries;
      assert [head] + (kept + [e]) == ([head] + kept) + [e];
    }
  }

  /**
   A launched process that has not exited is listed last, under its name and
   argument string, and the argument string still reads back as the arguments.
   */
  lemma LaunchedIsListedLast(entries: seq<Entry>, path: string, args: seq<string>, launch: Launch, exited: set<nat>)
    requires launch.Started? && launch.pid !in exited
    ensures RunProcess(entries, path, args, launch).Ok?
    ensures var names := GetNames(RunProcess(entries, path, args, launch).value, exited).names;
            |names| > 0 && names[|names| - 1] == launch.name + " " + JoinArgs(args)
            && CommandLine.ParseArgs(names[|names| - 1][|launch.name| + 1..]) == args
  {
    var e := Entry(Process(launch.pid, launch.name, JoinArgs(args)), launch.output);
    assert RunProcess(entries, path, args, launch).value == entries + [e];
    RemoveExitedAppend(entries, e, exited);
    CommandLine.JoinArgsRoundTrip(args);
    var name := launch.name + " " + JoinArgs(args);
    assert name[|launch.name| + 1..] == JoinArgs(args);
  }

  /**
   The names listed and the indices `Close` takes agree: closing index `i` of
   the pruned list closes the process listed as the `i`-th name.
   */
  lemma CloseListedEntry(entries: seq<Entry>, os: Os, i: int)
    requires DistinctOutputs(entries)
    requires 0 <= i < |GetNames(entries, os.exited).names|
    ensures var listing := GetNames(entries, os.exited);
            var closed := Close(listing.pruned.entries, i, os);
            closed.Ok? && closed.value.effects[0] == CloseMainWindow(listing.pruned.entries[i].process.pid)
            && FriendlyName(listing.pruned.entries[i].process) == listing.names[i]
            && listing.pruned.entries[i] !in closed.value.entries
  {
    var listing := GetNames(entries, os.exited);
    var kept := listing.pruned.entries;
    RemoveExitedKeepsDistinct(entries, os.exited);
    var after := Close(kept, i, os).value.entries;
    forall j | 0 <= j < |after|
      ensures after[j] != kept[i]
    {
      if j < i {
        assert after[j].output == kept[j].output != kept[i].output;
      } else {
        assert after[j].output == kept[j + 1].output != kept[i].output;
      }
    }
  }

  // ----- The close protocol inside `CloseAll` -----

  /** `part` occurs in `whole` as a contiguous run. */
  predicate Contains(whole: seq<Effect>, part: seq<Effect>) {
    exists k :: 0 <= k <= |whole| && OccursAt(whole, part, k)
  }

  predicate OccursAt(whole: seq<Effect>, part: seq<Effect>, k: int) {
    0 <= k <= |whole| - |part| && whole[k..k + |part|] == part
  }

  lemma ContainsBefore(a: seq<Effect>, b: seq<Effect>, part: seq<Effect>)
    requires Contains(a, part)
    ensures Contains(a + b, part)
  {
    var k :| 0 <= k <= |a| && OccursAt(a, part, k);
    assert k + |part| <= |a|;
    assert (a + b)[k..k + |part|] == a[k..k + |part|];
    assert OccursAt(a + b, part, k);
  }

  lemma ContainsAfter(a: seq<Effect>, b: seq<Effect>, part: seq<Effect>)
    requires Contains(b, part)
    ensures Contains(a + b, part)
  {
    var k :| 0 <= k <= |b| && OccursAt(b, part, k);
    assert k + |part| <= |b|;
    assert (a + b)[|a| + k..|a| + k + |part|] == b[k..k + |part|];
    assert OccursAt(a + b, part, |a| + k);
  }

  /** Every entry's whole close protocol appears, uninterrupted, among the effects of closing all. */
  lemma {:induction false} TerminateAllProtocol(entries: seq<Entry>, os: Os)
    ensures forall i :: 0 <= i < |entries| ==> Contains(TerminateAll(entries, os), Terminate(entries[i], os))
  {
    if |entries| > 0 {
      var head, tail := Terminate(entries[0], os), entries[1..];
      TerminateAllProtocol(tail, os);
      forall i | 0 <= i < |entries|
        ensures Contains(TerminateAll(entries, os), Terminate(entries[i], os))
      {
        if i == 0 {
          assert (head + TerminateAll(tail, os))[0..|head|] == head;
          assert OccursAt(TerminateAll(entries, os), head, 0);
        } else {
          assert entries[i] == tail[i - 1];
          ContainsAfter(head, TerminateAll(tail, os), Terminate(entries[i], os));
        }
      }
    }
  }

  /** Closing all touches only the processes of the list: every effect but a disposal names one of them. */
  lemma {:induction false} TerminateAllPids(entries: seq<Entry>, os: Os)
    ensures forall k :: 0 <= k < |TerminateAll(entries, os)| ==>
              TerminateAll(entries, os)[k].DisposeOutput?
              || exists j :: 0 <= j < |entries| && TerminateAll(entries, os)[k].pid == entries[j].process.pid
  {
    if |entries| > 0 {
      var head, tail := Terminate(entries[0], os), entries[1..];
      TerminateAllPids(tail, os);
      var all := TerminateAll(entries, os);
      forall k | 0 <= k < |all|
        ensures all[k].DisposeOutput? || exists j :: 0 <= j < |entries| && all[k].pid == entries[j].process.pid
      {
        if k < |head| {
          assert all[k] == head[k];
          if !all[k].DisposeOutput? {
            assert all[k].pid == entries[0].process.pid;
          }
        } else {
          assert all[k] == TerminateAll(tail, os)[k - |head|];
          if !all[k].DisposeOutput? {
            var j :| 0 <= j < |tail| && all[k].pid == tail[j].process.pid;
            assert tail[j] == entries[j + 1];
          }
        }
      }
    }
  }

  /**
   `CloseAll` runs the whole close protocol, uninterrupted, for every entry
   still running; an entry that had already exited is only retired, and is
   sent no close message, no wait and no kill.
   */
  lemma CloseAllProtocol(entries: seq<Entry>, os: Os)
    ensures forall i :: 0 <= i < |entries| && entries[i].process.pid !in os.exited ==>
              Contains(CloseAll(entries, os).effects, Terminate(entries[i], os))
    ensures forall i, k :: (0 <= i < |entries| && entries[i].process.pid in os.exited
                            && 0 <= k < |CloseAll(entries, os).effects|) ==>
              Spares(CloseAll(entries, os).effects[k], entries[i].process.pid)
  {
    CloseAllRunsProtocol(entries, os);
    CloseAllSparesExited(entries, os);
  }

  /** `x` is neither a close message, nor a wait, nor a kill for `pid`. */
  predicate Spares(x: Effect, pid: nat) {
    x.DisposeOutput? || x.CloseHandle? || x.pid != pid
  }

  lemma CloseAllRunsProtocol(entries: seq<Entry>, os: Os)
    ensures forall i :: 0 <= i < |entries| && entries[i].process.pid !in os.exited ==>
              Contains(CloseAll(entries, os).effects, Terminate(entries[i], os))
  {
    var pruned := RemoveExited(entries, os.exited);
    var closing := TerminateAll(pruned.entries, os);
    assert CloseAll(entries, os).effects == pruned.effects + closing;
    RemoveExitedKeeps(entries, os.exited);
    TerminateAllProtocol(pruned.entries, os);
    forall i | 0 <= i < |entries| && entries[i].process.pid !in os.exited
      ensures Contains(pruned.effects + closing, Terminate(entries[i], os))
    {
      assert entries[i] in pruned.entries;
      var j :| 0 <= j < |pruned.entries| && pruned.entries[j] == entries[i];
      ContainsAfter(pruned.effects, closing, Terminate(entries[i], os));
    }
  }

  lemma CloseAllSparesExited(entries: seq<Entry>, os: Os)
    ensures forall i, k :: (0 <= i < |entries| && entries[i].process.pid in os.exited
                            && 0 <= k < |CloseAll(entries, os).effects|) ==>
              Spares(CloseAll(entries, os).effects[k], entries[i].process.pid)
  {
    var pruned := RemoveExited(entries, os.exited);
    var closing := TerminateAll(pruned.entries, os);
    var all := pruned.effects + closing;
    assert CloseAll(entries, os).effects == all;
    RemoveExitedKeeps(entries, os.exited);
    RemoveExitedOnlyRetires(entries, os.exited);
    TerminateAllPids(pruned.entries, os);
    forall i, k | 0 <= i < |entries| && entries[i].process.pid in os.exited && 0 <= k < |all|
      ensures Spares(all[k], entries[i].process.pid)
    {
      if k < |pruned.effects| {
        assert all[k] == pruned.effects[k];
        assert RetiresExited(pruned.effects[k], entries, os.exited);
      } else {
        assert all[k] == closing[k - |pruned.effects|];
        if !all[k].DisposeOutput? {
          var j :| 0 <= j < |pruned.entries| && all[k].pid == pruned.entries[j].process.pid;
          assert pruned.entries[j] in pruned.entries;
        }
      }
    }
  }

  /**
   The capture the tray shows for the `i`-th listed name is the capture of
   the process that name lists: names and `GetProcessOutput` index the same
   pruned list.
   */
  lemma ListedOutput(entries: seq<Entry>, exited: set<nat>, i: int)
    requires 0 <= i < |GetNames(entries, exited).names|
    ensures var listing := GetNames(entries, exited);
            var output := GetProcessOutput(listing.pruned.entries, i);
            output.Ok? && (exists e :: e in entries && e.process.pid !in exited
                             && FriendlyName(e.process) == listing.names[i] && e.output == output.value)
  {
    var listing := GetNames(entries, exited);
    RemoveExitedKeeps(entries, exited);
    var e := listing.pruned.entries[i];
    assert e in listing.pruned.entries;
  }

  // ----- Nothing beyond the close protocol -----

  /** The close protocol of one entry aims nothing at another process. */
  lemma TerminateOtherPid(e: Entry, os: Os, x: Effect)
    requires !x.DisposeOutput? && x.pid != e.process.pid
    ensures multiset(Terminate(e, os))[x] == 0
  {
  }

  lemma TailDistinctPids(entries: seq<Entry>)
    requires |entries| > 0 && DistinctPids(entries)
    ensures DistinctPids(entries[1..])
    ensures forall j :: 0 <= j < |entries| - 1 ==> entries[1..][j].process.pid != entries[0].process.pid
  {
  }

  /** How often `x` occurs when closing a non-empty list: in the head's protocol plus in the rest. */
  lemma CountCons(entries: seq<Entry>, os: Os, x: Effect)
    requires |entries| > 0
    ensures multiset(TerminateAll(entries, os))[x]
            == multiset(Terminate(entries[0], os))[x] + multiset(TerminateAll(entries[1..], os))[x]
  {
    TerminateAllCons(entries, os);
  }

  /** Closing a list aims nothing at a process outside it. */
  lemma {:induction false} TerminateAllAbsent(entries: seq<Entry>, os: Os, x: Effect)
    requires !x.DisposeOutput? && forall i :: 0 <= i < |entries| ==> entries[i].process.pid != x.pid
    ensures multiset(TerminateAll(entries, os))[x] == 0
  {
    if |entries| > 0 {
      var tail := entries[1..];
      forall j | 0 <= j < |tail|
        ensures tail[j].process.pid != x.pid
      {
        assert tail[j] == entries[j + 1];
      }
      TerminateAllAbsent(tail, os, x);
      TerminateOtherPid(entries[0], os, x);
      CountCons(entries, os, x);
    }
  }

  /**
   With distinct process ids, what closing a list aims at one of its
   processes is exactly what that process's own close protocol aims at it.
   */
  lemma {:induction false} TerminateAllPresent(entries: seq<Entry>, os: Os, x: Effect, i: nat)
    requires DistinctPids(entries) && !x.DisposeOutput?
    requires i < |entries| && entries[i].process.pid == x.pid
    ensures multiset(TerminateAll(entries, os))[x] == multiset(Terminate(entries[i], os))[x]
  {
    if i == 0 {
      PresentAtHead(entries, os, x);
    } else {
      PresentInTail(entries, os, x, i);
      TailDistinctPids(entries);
      assert entries[i] == entries[1..][i - 1];
      TerminateAllPresent(entries[1..], os, x, i - 1);
    }
  }

  /** The head's own protocol is all that closing the list aims at the head's process. */
  lemma PresentAtHead(entries: seq<Entry>, os: Os, x: Effect)
    requires DistinctPids(entries) && !x.DisposeOutput?
    requires |entries| > 0 && entries[0].process.pid == x.pid
    ensures multiset(TerminateAll(entries, os))[x] == multiset(Terminate(entries[0], os))[x]
  {
    CountCons(entries, os, x);
    TailDistinctPids(entries);
    TerminateAllAbsent(entries[1..], os, x);
  }

  /** The head's protocol aims nothing at the process of a later entry. */
  lemma PresentInTail(entries: seq<Entry>, os: Os, x: Effect, i: nat)
    requires DistinctPids(entries) && !x.DisposeOutput?
    requires 0 < i < |entries| && entries[i].process.pid == x.pid
    ensures multiset(TerminateAll(entries, os))[x] == multiset(TerminateAll(entries[1..], os))[x]
  {
    CountCons(entries, os, x);
    TerminateOtherPid(entries[0], os, x);
  }

  /** Pruning keeps process ids distinct. */
  lemma RemoveExitedKeepsDistinctPids(entries: seq<Entry>, exited: set<nat>)
    requires DistinctPids(entries)
    ensures DistinctPids(RemoveExited(entries, exited).entries)
  {
    var kept := RemoveExited(entries, exited).entries;
    RemoveExitedKeeps(entries, exited);
    SubsequenceIndices(kept, entries);
    forall i, j | 0 <= i < j < |kept|
      ensures kept[i].process.pid != kept[j].process.pid
    {
      var a, b := Position(kept, entries, i), Position(kept, entries, j);
    }
  }

  /** Where the `i`-th element of a subsequence stands in the whole sequence. */
  function Position<T(==)>(a: seq<T>, b: seq<T>, i: nat): nat
    requires IsSubsequence(a, b) && i < |a|
    decreases |b|
  {
    if a[0] == b[0] then (if i == 0 then 0 else 1 + Position(a[1..], b[1..], i - 1))
    else 1 + Position(a, b[1..], i)
  }

  /** A subsequence's elements stand in the whole sequence at strictly increasing positions. */
  lemma {:induction false} SubsequenceIndices<T>(a: seq<T>, b: seq<T>)
    requires IsSubsequence(a, b)
    ensures forall i :: 0 <= i < |a| ==> Position(a, b, i) < |b| && b[Position(a, b, i)] == a[i]
    ensures forall i, j :: 0 <= i < j < |a| ==> Position(a, b, i) < Position(a, b, j)
    decreases |b|
  {
    if |a| > 0 {
      if a[0] == b[0] {
        SubsequenceIndices(a[1..], b[1..]);
        forall i, j | 0 <= i < j < |a|
          ensures Position(a, b, i) < Position(a, b, j)
        {
          if i > 0 {
            assert Position(a, b, i) == 1 + Position(a[1..], b[1..], i - 1);
          }
        }
      } else {
        SubsequenceIndices(a, b[1..]);
      }
    }
  }

  /** Pruning aims nothing but handle releases of exited processes at a process. */
  lemma PruneAimsNothing(entries: seq<Entry>, exited: set<nat>, x: Effect)
    requires !x.DisposeOutput? && x.pid !in exited
    ensures multiset(RemoveExited(entries, exited).effects)[x] == 0
  {
    var effects := RemoveExited(entries, exited).effects;
    RemoveExitedOnlyRetires(entries, exited);
    assert x !in effects;
  }

  /**
   With distinct process ids, `CloseAll` aims at each running process exactly
   the messages, wait, kill and handle release of its own close protocol, each
   as often as the protocol does: no second close message, and no kill of a
   process that accepted the message and exited in time.
   */
  lemma CloseAllRunsOnce(entries: seq<Entry>, os: Os, x: Effect)
    requires DistinctPids(entries) && !x.DisposeOutput?
    ensures forall i :: 0 <= i < |entries| && entries[i].process.pid !in os.exited && entries[i].process.pid == x.pid ==>
              multiset(CloseAll(entries, os).effects)[x] == multiset(Terminate(entries[i], os))[x]
  {
    var pruned := RemoveExited(entries, os.exited);
    var closing := TerminateAll(pruned.entries, os);
    assert CloseAll(entries, os).effects == pruned.effects + closing;
    assert multiset(pruned.effects + closing) == multiset(pruned.effects) + multiset(closing);
    RemoveExitedKeeps(entries, os.exited);
    RemoveExitedKeepsDistinctPids(entries, os.exited);
    forall i | 0 <= i < |entries| && entries[i].process.pid !in os.exited && entries[i].process.pid == x.pid
      ensures multiset(pruned.effects)[x] + multiset(closing)[x] == multiset(Terminate(entries[i], os))[x]
    {
      PruneAimsNothing(entries, os.exited, x);
      assert entries[i] in pruned.entries;
      var j :| 0 <= j < |pruned.entries| && pruned.entries[j] == entries[i];
      TerminateAllPresent(pruned.entries, os, x, j);
    }
  }
}
